=== FILE: README.md ===
# DQN query-rewrite trainer: a Dafny model

This project models the deterministic core of `dqn-data-optimization`. That repository trains a double, dueling DQN agent to rewrite one SQL query against a PostgreSQL database. The agent picks one of four actions: add an index, rewrite the join, add a `WHERE` condition or remove the subquery. The measured `EXPLAIN ANALYZE` time, negated, is the reward. The model covers four pieces:

- **`ReplayBuffer`** (`src/ReplayBuffer.py`): the prioritized replay buffer.
  - Two bounded FIFO deques, transitions and priorities, plus `alpha`.
  - `add` appends to both and evicts the oldest pair when full.
  - `sample` turns priorities into a distribution, with a uniform fallback when they sum to zero. It gathers the drawn transitions and scales the importance weights so that the largest is 1.
  - `update_priorities` writes `pow(error + 1e-5, alpha)` to the given (possibly negative) deque indices, and the last write wins.
- **`Environment`** (`src/environment.py`): the query-rewrite step, as pure functions over an `Env` record holding `query` and `state`.
  - Maps an action index to an action, with Python's negative indexing.
  - The `add_where` string surgery.
  - The fixed query literals.
  - Extracting the time text between `actual time=` and `..` from the last plan row, with the 1000 ms fallback.
  - `reward = -time` and `done = time < 10`.
  - The closing `reset()`, which puts back the fixed base query and a 4-element state.
- **`Training`** (`src/train.py`): the arithmetic and data flow of `train`.
  - ε-greedy choice, with numpy's `argmax` returning the first maximum.
  - The double-Q target and the TD error.
  - The learn guard `size > batch_size`.
  - The per-row target overwrite and the post-fit row-max TD error.
  - ε decay and the hard target sync every `update_target_freq` episodes.
  - One environment step plus learning (`TrainStep`) and the episode end (`EndEpisode`), on an agent record `(epsilon, online, target, episode)`.
- **`Netoyage`** (`netoyage.py`): the result filter.
  - A fold keeps the lowest time per query file; a strict `<` means the first row to reach the minimum wins.
  - The output is a header, then one entry per file in ascending file-name order.

Shared modules:
- `Outcomes` holds `Option`/`Result`, Python indexing (`PyIndex`) and Python's `%` (`PyMod`).
- `PyText` holds the Python `str` operations the code relies on: `in`, `find`, `strip`, `split(sep)[k]` and `<`.

Some things become parameters and are never defined:
- The neural network: `predict` and `fit` are functions over an opaque weight type `W`. The predicate `WellShaped` says `predict` yields one Q-value per action.
- `x ** y`: a function `pow`. `PowLaws` gives it only `pow(1, a) = 1`, `pow(0, a) = 0` for `a > 0`, and positivity on positive bases.
- The database: a `run` function from SQL text to plan rows or a raised error, plus the plan features `reset` reads.
- `float()`: a function `parse`.
- Randomness: the coin, the random action and the drawn index vector are inputs. `Draws` says a draw is one `np.random.choice` could return.
- `round(·, 3)`: a function `round`.

A Python exception is an `Err` value naming the exception.

## Model

| member | source | states |
|---|---|---|
| ReplayBuffer.Create | src/ReplayBuffer.py:9-12 | a new buffer is empty and valid (equal-length deques within capacity), with the given capacity and alpha |
| ReplayBuffer.Add | src/ReplayBuffer.py:14-19 | size becomes min(size + 1, capacity); below capacity the pair is appended; when full the oldest transition and priority are dropped and the new pair goes last; the stored priority is pow(error, alpha) with no epsilon added |
| ReplayBuffer.DefaultErrorGivesUnitPriority | src/ReplayBuffer.py:14-19 | adding with the default error 1.0 stores priority exactly 1 |
| ReplayBuffer.AddZeroErrorStoresZeroPriority | src/ReplayBuffer.py:19 | a zero TD error passed to add stores priority 0 (unlike update_priorities, which adds 1e-5) |
| ReplayBuffer.AddAll | src/ReplayBuffer.py:10-19 | after any sequence of adds the buffer holds the last min(old + new, capacity) transitions of old ++ new, in order |
| ReplayBuffer.Probabilities | src/ReplayBuffer.py:29-34 | the distribution sums to 1; it is 1/len everywhere when the priorities sum to 0, otherwise each priority divided by the sum |
| ReplayBuffer.AllZeroIsUniform | src/ReplayBuffer.py:31-32 | all-zero priorities give the uniform distribution |
| ReplayBuffer.RawWeights | src/ReplayBuffer.py:41 | one positive weight (len · p_i)^(-beta) per drawn index |
| ReplayBuffer.Normalise | src/ReplayBuffer.py:42 | every normalised weight lies in (0, 1], some weight equals 1, and each is its raw weight over the maximum raw weight |
| ReplayBuffer.Sample | src/ReplayBuffer.py:21-44 | Err exactly for an empty buffer (or a zero batch, where weights.max() raises); otherwise batch, weights and indices have batch_size entries, batch[k] is the stored transition at indices[k], the weights are in (0, 1] with one equal to 1, and a buffer smaller than the batch is still sampled |
| ReplayBuffer.Overwrite | src/ReplayBuffer.py:50-51 | writing pairs in order: a slot's final value is its last write, unwritten slots keep their value, length is unchanged |
| ReplayBuffer.UpdatePriorities | src/ReplayBuffer.py:46-51 | succeeds iff every zipped index is a valid (possibly negative) deque index; then transitions, capacity and alpha are unchanged, each written slot holds pow(error + 1e-5, alpha) of its last write, other slots are unchanged |
| ReplayBuffer.RefreshedPrioritiesPositive | src/ReplayBuffer.py:50-51 | for non-negative errors every slot update_priorities touches ends up with a positive priority |
| Outcomes.PyIndex | src/environment.py:44 | Python list indexing: defined exactly for -n <= idx < n, negative indices count from the end |
| Outcomes.PyMod | src/train.py:82 | Python's % takes the divisor's sign, is zero exactly when the divisor divides, and is a % b or a % b + b, which with the sign fixes Python's value |
| Environment.IndexOf | src/environment.py:14 | each action has its position in the fixed action list |
| Environment.ActionAt | src/environment.py:44 | self.actions[idx] succeeds iff -4 <= idx < 4 and yields the action at that (wrapped) position, IndexError otherwise |
| Environment.ActionIndexRoundTrip | src/environment.py:44 | index to action to index and action to index to action are identities |
| PyText.Find | src/environment.py:61 | find returns -1 iff the pattern is absent, else the first position where it occurs |
| PyText.Strip | src/environment.py:64 | strip removes exactly the leading and trailing whitespace; a non-empty result starts and ends with non-whitespace |
| PyText.Before | src/environment.py:85 | split(sep)[0] is a prefix without sep, followed by sep or the end, and no sep of the text starts inside it: the cut is at the first sep |
| PyText.Between | src/environment.py:85 | split(sep)[1] is the text right after the first sep, without sep, followed by sep or the end, and no sep of the text starts inside it: the field ends at the next sep |
| Environment.AddWhereShape | src/environment.py:57-75 | AND is used iff the query contains WHERE; with a GROUP BY at g the result is strip(q[:g]) + clause + " " + q[g:], keeping q[g:] as suffix; without one q is a prefix and the clause follows |
| Environment.AddWhereMentionsWhere | src/environment.py:59-75 | after add_where the query always contains WHERE, so a second add_where uses AND |
| Environment.TimeTextShape | src/environment.py:85 | the extracted time text sits right after the first "actual time=", holds neither ".." nor the marker, is followed by "..", the marker or the end of the line, and no ".." of the line starts inside it: it ends at the first ".." after the marker |
| Environment.PlanTime | src/environment.py:81-89 | 1000 when the plan is empty, its last row is empty or lacks the marker; otherwise the parsed time text; any other value is a successful parse |
| Environment.Rewrite | src/environment.py:48-77 | add_index keeps the query, rewrite_join and remove_subquery set the fixed literals, add_where applies the surgery and fails only on a missing query |
| Environment.ExecutionTime | src/environment.py:79-93 | a raised execution (or a missing query) gives 1000, otherwise the plan's time |
| Environment.ResetState | src/environment.py:27-32 | the state is exactly [length of the base query, number of sub-plans, plan-row estimate, index count] |
| Environment.ResetStateLength | src/environment.py:22-28 | the first component of every reset state is 133, the length of the fixed base query |
| Environment.Reset | src/environment.py:18-33 | reset restores the fixed base query and sets the state to the 4-component ResetState of the plan features |
| Environment.Step | src/environment.py:43-98 | fails only on a bad index or add_where on no query; otherwise reward = -time, done iff time < 10, and the environment is the freshly reset one |
| Environment.FallbackIsNotDone | src/environment.py:93-97 | the 1000 ms fallback gives reward -1000 and done = false |
| Environment.StepBeforeReset | src/environment.py:15-59 | on a new environment, before any reset, a legal action fails iff it is add_where, which raises TypeError on the missing query |
| Environment.StepForgetsHistory | src/environment.py:96 | given the same database responses and plan features, a step's result does not depend on the query earlier steps left: rewrites never accumulate |
| Training.ArgMax | src/train.py:42 | numpy argmax: an index of a maximum, before which every value is strictly smaller (the first maximum) |
| Training.ArgMaxReachesMax | src/train.py:42 | the value at argmax is the maximum |
| Training.ChooseAction | src/train.py:38-42 | the action is in range; it is the random action when coin < epsilon, else the first maximal Q-value |
| Training.DoubleQTarget | src/train.py:49-51 | done gives the reward exactly; otherwise reward + gamma times the target net's value at the online net's argmax |
| Training.DoubleQBound | src/train.py:49-51 | for gamma >= 0 the double-Q target never exceeds the greedy target-network target |
| Training.SameNetworkIsGreedyTarget | src/train.py:49-51 | with one network for both roles the double-Q target is the plain max target |
| Training.TdError | src/train.py:52 | the TD error is non-negative, zero iff target equals current, and is ±(target − current) |
| Training.BatchTargets | src/train.py:60-65 | each row keeps the prediction except at its action, which becomes that row's double-Q target |
| Training.RowError | src/train.py:77 | the row error is non-negative, bounds every absolute difference in the row and is attained |
| Training.RefreshedErrors | src/train.py:76-77 | one non-negative row-max error per sample |
| Training.RefreshWithoutChange | src/train.py:76-77 | if the fit changed nothing, the refreshed error of a row is the TD error of its target at the taken action |
| Training.PerfectFitZeroErrors | src/train.py:77 | a perfect fit gives all-zero refreshed errors |
| Training.DecayEpsilon | src/train.py:80 | the new ε is max(ε_min, ε·decay): never below ε_min, and for 0 <= decay <= 1 and ε >= ε_min never above ε |
| Training.EpsilonSchedule | src/train.py:80 | across episodes ε stays within [ε_min, ε_0], never increases, and stays at ε_min once reached |
| Training.DefaultEpsilonBounds | src/train.py:12-13 | with the default 1.0, 0.01, 0.995 ε stays within [0.01, 1] forever |
| Training.Reshape | src/train.py:33 | reshape(1, n) succeeds iff the vector has n components |
| Training.ResetStateNeverFitsAsWritten | src/train.py:33 | the 4-component reset state never reshapes to state_size 5 |
| Training.ResetStateFits | src/train.py:33 | with 4 as the width the reset state reshapes unchanged |
| Training.UnpackAsWritten | src/train.py:58 | unpacking the batch list into five names succeeds iff the batch has exactly 5 transitions |
| Training.DefaultBatchCannotBeUnpacked | src/train.py:58 | with batch_size 16 that unpacking always fails |
| Training.Unpack | src/train.py:58 | five columns, each as long as the batch, from which every transition is recovered |
| Training.InitAgent | src/train.py:19-21 | the target network starts as a copy of the online network |
| Training.SampleTargets | src/train.py:60-65 | one Q-row per sampled transition: the online prediction of its state, except at its action, where it is the double-Q target with the online net choosing and the target net valuing the next action |
| Training.LearnFrom | src/train.py:58-78 | the targets are SampleTargets of the unpacked batch; the online net is fit on them with the sample's weights; the errors are the row-max errors of the targets against the fitted net's predictions; update_priorities writes them to the sampled slots and keeps the transitions |
| Training.Learn | src/train.py:57-78 | learning fails only for a zero batch; otherwise the sample is what sample returns for the drawn indices (so the fit weights are its importance weights), and the rest is LearnFrom on that sample |
| Training.Act | src/train.py:38-54 | the action is the epsilon-greedy choice on the online prediction; the environment step succeeds; the new buffer is add of the transition with the TD error of its double-Q target against the online Q-value of the taken action, so older transitions are kept (or the oldest evicted) and alpha is unchanged |
| Training.TrainStep | src/train.py:37-78 | one step never touches the target net or ε; it acts as Act does, learns exactly when size > batch_size after the add, and then takes the online weights and the buffer from Learn on the post-add buffer; without learning the online net is unchanged and the buffer is Act's |
| Training.AfterAct | src/train.py:57-78 | after the add: Err only when learning is due with a zero batch; learning happens iff size > batch_size, and then the online weights and buffer are Learn's; otherwise the online net and the post-add buffer are kept; the target net, ε and the episode never change |
| Training.StartEpisode | src/train.py:32-33 | each episode starts from the base query, and its state is the reset state of the plan features, at the corrected width 4 |
| Training.EndEpisode | src/train.py:80-83 | ε decays; the target net becomes the online net exactly when episode % freq == 0 (episode 0 included), else is unchanged; freq 0 raises |
| Training.DefaultLearningStart | src/train.py:24 | with the buffer train creates and batch size 16, learning happens iff more than 16 transitions were stored |
| Training.DefaultZeroErrorPriority | src/train.py:24 | in the buffer train creates (default alpha 0.6), a zero TD error is stored as priority 0 |
| Training.DefaultSyncSchedule | src/train.py:82-83 | with freq 5 the sync happens on episodes 0, 5, 10, … and only then |
| Netoyage.BestTimes | netoyage.py:11-16 | best_times has an entry for exactly the files seen |
| Netoyage.BestIsLowest | netoyage.py:15-16 | each stored time is at most every time recorded for that file |
| Netoyage.BestIsFirstLowest | netoyage.py:15-16 | each stored time is the time of a row of that file, and every earlier row of the file is strictly slower: the first minimum wins |
| Netoyage.FirstSeen | netoyage.py:11-16 | the dict's keys: each seen file exactly once and nothing else (their order is not stated, since only sorted() consumes them) |
| Netoyage.SortAscending | netoyage.py:23 | sorting distinct names gives a strictly ascending sequence |
| PyText.LessTotal | netoyage.py:23 | Python's string < is irreflexive, asymmetric and total on distinct strings |
| Netoyage.SortedFiles | netoyage.py:23 | sorted(best_times.items()) visits exactly the keys |
| Netoyage.Filtered | netoyage.py:19-24 | the output starts with the header; every entry is a file of best_times with its rounded best time |
| Netoyage.FilteredAscending | netoyage.py:21-24 | there is one entry per distinct file, in strictly ascending order, so no file is written twice |
| Netoyage.FilteredCoversSeen | netoyage.py:23-24 | a file has an entry iff some input row names it |

## Left out

- Database I/O is left out: psycopg2 connections, cursors, commit and rollback, index creation, and the `EXPLAIN (FORMAT JSON)` feature extraction in `reset` and `_count_indexes`. Their results are inputs (`run`, `PlanFeatures`).
- `src/dqn.py` is not part of this model. `build_dueling_dqn`, `predict` and `fit` are Keras float computations, taken as abstract functions.
- Randomness (`random.random`, `random.randrange`, `np.random.choice`) is left out. Coins and drawn indices are inputs.
- numpy's ValueError for negative probabilities is not modelled.
- float32 storage, `float()` parsing, `x ** y` and `round(·, 3)` are left out because they are floating point. They are abstract functions over reals.
- TensorBoard logging, `print`, `save_weights` and CSV reading and writing are output plumbing and are left out.
- `script.py` and `testcon.py` are left out: database scripts with no logic of their own.
- The two nested loops of `train` are not composed into one function, because their termination depends on the database. `StartEpisode`, `TrainStep` and `EndEpisode` are the bodies, and the buffer invariant `BufferOk` carries across them.
- Training.BatchTargets: requires each action to index its row directly. numpy would also accept a negative action. Every stored action comes from `ChooseAction` and is in range, so the case cannot arise.
- Training.EpsilonSchedule: states bounds and monotonicity of repeated decay, not the closed form max(ε_min, ε_0·decay^n).
- ReplayBuffer.Sample: requires the drawn vector to be one `np.random.choice` can return (in range, positive probability).
- ReplayBuffer.Create: the capacity is a `nat`. `deque(maxlen=-1)` raising ValueError and `maxlen=None` giving an unbounded deque are not modelled; `train` always passes 10000.
- ReplayBuffer.Sample: the batch size is a `nat`, so `np.random.choice` raising on a negative size is not modelled; `train` always passes its positive `batch_size`.
- Netoyage.Filtered: rounding is an abstract `round`, so the model says nothing about three-decimal output. CSV quoting is not modelled.
- Environment.Reset: a database error inside `reset` (the `EXPLAIN (FORMAT JSON)` query or `_count_indexes`) propagates out of `step` and `train`; it is not modelled, because the plan features are an input and `Reset` cannot fail.
- Environment.StepForgetsHistory: the index that `add_index` creates (`CREATE INDEX IF NOT EXISTS idx_shipdate`, committed at src/environment.py:50-51) persists across steps and episodes. It changes later execution times and the index count of later reset states. The model takes `run` and `PlanFeatures` as fixed inputs, so it does not capture this, and the lemma holds only for equal database responses.
- Environment.PlanTime: a text that `float()` rejects is an abstract `parse` returning `None`. The model then uses the 1000 ms fallback, as the `except` at line 90 does.

Behaviours of the code that the model keeps as they are:
- `sample` refuses only an empty buffer, not one smaller than the batch.
- `add` stores `error ** alpha` with no `1e-5` and no absolute value.
- `reset` always uses one fixed query.
- `step` has no timeout threshold, and the failure fallback gives `done = false`.

## Findings

| source | as written | input that shows it | evidently intended | confidence | as-written member | corrected member |
|---|---|---|---|---|---|---|
| src/train.py:33 | `reshape(1, state_size)` with `state_size = 5` (line 16) is applied to the 4-component state `reset` returns (src/environment.py:27-32) | any reset state, e.g. `[133, 0, 6, 1]` (the first component is always 133, the length of the base query): numpy cannot reshape 4 values to (1, 5) and raises ValueError on the first episode | a state width of 4, the length of the reset state | not executed | Training.ResetStateNeverFitsAsWritten | Training.ResetStateFits |
| src/train.py:58 | the list of `batch_size` transition tuples returned by `sample` is unpacked into five names | `batch_size = 16`: unpacking 16 tuples into 5 names raises ValueError on the first learning step | transpose the batch into five field columns (`zip(*batch)`) | not executed | Training.DefaultBatchCannotBeUnpacked | Training.Unpack |

The training model (`Act`, `Learn`, `TrainStep`) uses the corrected state width `StateDim = 4` and the column transpose `Unpack`.

=== FILE: Environment.dfy ===
/** The query-rewriting environment (`QueryEnv`): an action index picks one
    of four rewrites of the current SQL text, the rewritten query is run
    under `EXPLAIN ANALYZE`, and the reported time becomes the reward. The
    database is abstract: running a statement is a function `run` from the
    statement text to an outcome, the plan features `reset` reads are an
    input, and Python's `float()` is a partial function `parse`. */
module Environment {
  import opened Outcomes
  import opened PyText

  datatype Action = AddIndex | RewriteJoin | AddWhere | RemoveSubquery

  /** `QueryEnv.actions`, in its fixed order. */
  const Actions: seq<Action> := [AddIndex, RewriteJoin, AddWhere, RemoveSubquery]

  /** The query `reset` installs (and `rewrite_join` re-installs verbatim). */
  const BaseQuery: string := "SELECT l_returnflag, l_linestatus, SUM(l_quantity) FROM lineitem WHERE l_shipdate <= '1998-12-01' GROUP BY l_returnflag, l_linestatus"

  /** The query `remove_subquery` installs: the base query without its filter. */
  const NoFilterQuery: string := "SELECT l_returnflag, l_linestatus, SUM(l_quantity) FROM lineitem GROUP BY l_returnflag, l_linestatus"

  const GroupBy: string := "GROUP BY"
  const Where: string := "WHERE"
  const AndClause: string := " AND l_quantity > 10"
  const WhereClause: string := " WHERE l_quantity > 10"

  /** The marker whose following text holds the measured time. */
  const TimeMarker: string := "actual time="
  const RangeSep: string := ".."

  /** The time (ms) charged when no time can be read or the query fails. */
  const FallbackTime: real := 1000.0
  /** An episode ends once a query runs faster than this (ms). */
  const DoneBelow: real := 10.0

  /** `self.actions[idx]` raises IndexError; `"WHERE" in None` raises TypeError. */
  datatype EnvError = IndexError | TypeError

  /** The position of an action in `Actions`. */
  function IndexOf(a: Action): (i: nat)
    ensures i < |Actions| && Actions[i] == a
  {
    match a
    case AddIndex => 0
    case RewriteJoin => 1
    case AddWhere => 2
    case RemoveSubquery => 3
  }

  /** `self.actions[idx]` with Python list indexing: indices in [-4, 4) are
      accepted, negative ones counting from the end. */
  function ActionAt(idx: int): (r: Result<Action, EnvError>)
    ensures r.Ok? <==> -|Actions| <= idx < |Actions|
    ensures r.Ok? ==> IndexOf(r.value) == if idx >= 0 then idx else idx + |Actions|
  {
    match PyIndex(idx, |Actions|)
    case None => Err(IndexError)
    case Some(i) => Ok(Actions[i])
  }

  /** Action indices in [0, 4) and actions are in one-to-one correspondence. */
  lemma {:induction false} ActionIndexRoundTrip(a: Action, i: int)
    ensures ActionAt(IndexOf(a)) == Ok(a)
    ensures 0 <= i < |Actions| ==> IndexOf(ActionAt(i).value) == i
  {
    var r := ActionAt(IndexOf(a));
    assert IndexOf(r.value) == IndexOf(a);
  }

  /** The condition `add_where` appends: joined with AND when the query
      already mentions WHERE, as a new WHERE clause otherwise. */
  function Clause(q: string): string {
    if Contains(q, Where) then AndClause else WhereClause
  }

  /** `add_where`: inserts the condition (plus a space) in front of the
      first GROUP BY, after stripping the text before it, or appends it when
      there is no GROUP BY. */
  function AddWhereText(q: string): string {
    var g := Find(q, GroupBy);
    if g != -1 then Strip(q[..g]) + (Clause(q) + " " + q[g..])
    else q + Clause(q)
  }

  /** The shape of `add_where`'s result: the condition is joined with AND
      exactly when the query already mentions WHERE; the text from the first
      GROUP BY on is kept as a suffix, behind the stripped text before it and
      the condition; without a GROUP BY the whole query is kept as a prefix
      and the condition follows it. */
  lemma AddWhereShape(q: string)
    ensures Clause(q) == AndClause <==> Contains(q, Where)
    ensures var g := Find(q, GroupBy); var r := AddWhereText(q);
            g != -1 ==> && |r| >= |q| - g && r[|r| - (|q| - g)..] == q[g..]
                        && r[..|r| - (|q| - g)] == Strip(q[..g]) + (Clause(q) + " ")
    ensures var r := AddWhereText(q);
            Find(q, GroupBy) == -1 ==> |r| >= |q| && r[..|q|] == q && r[|q|..] == Clause(q)
  {
    var g := Find(q, GroupBy);
    if g != -1 {
      InsertParts(Strip(q[..g]), Clause(q) + " ", q[g..]);
    } else {
      AppendParts(q, Clause(q));
    }
  }

  lemma InsertParts(head: string, mid: string, tail: string)
    ensures var r := head + (mid + tail);
            |r| >= |tail| && r[|r| - |tail|..] == tail && r[..|r| - |tail|] == head + mid
  {
    var r := head + (mid + tail);
    assert r == (head + mid) + tail;
  }

  lemma AppendParts(head: string, tail: string)
    ensures (head + tail)[..|head|] == head && (head + tail)[|head|..] == tail
  {
  }

  /** After `add_where` the query always mentions WHERE, so applying it a
      second time joins the new condition with AND. */
  lemma AddWhereMentionsWhere(q: string)
    ensures Contains(AddWhereText(q), Where)
    ensures Clause(AddWhereText(q)) == AndClause
  {
    var g := Find(q, GroupBy);
    if g != -1 {
      StripKeepsWord(q[..g], Where);
      WhereSurvivesInsert(q, g, Strip(q[..g]), AddWhereText(q));
    } else {
      WhereSurvivesAppend(q, AddWhereText(q));
    }
  }

  /** An occurrence in `a` is one in `a + b`; one in `b` is one in `a + b`
      shifted by `|a|`. */
  lemma OccursInConcat(a: string, b: string, p: string, i: int)
    ensures OccursAt(a, p, i) ==> OccursAt(a + b, p, i)
    ensures OccursAt(b, p, i) ==> OccursAt(a + b, p, |a| + i)
  {
    if OccursAt(a, p, i) {
      assert (a + b)[i..i + |p|] == a[i..i + |p|];
    }
    if OccursAt(b, p, i) {
      assert (a + b)[|a| + i..|a| + i + |p|] == b[i..i + |p|];
    }
  }

  lemma WhereSurvivesAppend(q: string, r: string)
    requires r == q + Clause(q)
    ensures Contains(r, Where)
  {
    if Contains(q, Where) {
      var w := Find(q, Where);
      OccursInConcat(q, Clause(q), Where, w);
    } else {
      assert OccursAt(WhereClause, Where, 1);
      OccursInConcat(q, Clause(q), Where, 1);
    }
  }

  lemma WhereSurvivesInsert(q: string, g: int, head: string, r: string)
    requires 0 <= g <= |q| && OccursAt(q, GroupBy, g)
    requires Contains(q[..g], Where) ==> Contains(head, Where)
    requires r == head + (Clause(q) + " " + q[g..])
    ensures Contains(r, Where)
  {
    if Clause(q) == WhereClause {
      WhereClauseMentionsWhere();
      ContainsInMiddle(head, Clause(q) + " ", q[g..], Where, 1);
    } else {
      var w := Find(q, Where);
      NoWhereAcrossGroupBy(q, g, w);
      if w >= g {
        WhereInTail(q, g, w, head, Clause(q) + " ");
      } else {
        assert OccursAt(q[..g], Where, w) by { OccursInPrefix(q, Where, g, w); }
        var k :| 0 <= k <= |head| - |Where| && OccursAt(head, Where, k);
        ContainsInHead(head, Clause(q) + " ", q[g..], Where, k);
      }
    }
  }

  lemma WhereClauseMentionsWhere()
    ensures OccursAt(WhereClause + " ", Where, 1)
  {
    assert (WhereClause + " ")[1..6] == WhereClause[1..6];
  }

  lemma WhereInTail(q: string, g: int, w: int, head: string, mid: string)
    requires 0 <= g <= w && OccursAt(q, Where, w)
    ensures Contains(head + (mid + q[g..]), Where)
  {
    var tail := q[g..];
    assert OccursAt(tail, Where, w - g) by { assert tail[w - g..w - g + 5] == q[w..w + 5]; }
    ContainsInTail(head, mid, tail, Where, w - g);
  }

  /** A word without surrounding whitespace that occurs in `s` occurs in
      `strip(s)`. */
  lemma StripKeepsWord(s: string, p: string)
    requires |p| > 0 && !IsSpace(p[0]) && !IsSpace(p[|p| - 1])
    ensures Contains(s, p) ==> Contains(Strip(s), p)
  {
    if Contains(s, p) {
      var i :| 0 <= i <= |s| - |p| && OccursAt(s, p, i);
      var k := OccursInStrip(s, p, i);
    }
  }

  lemma ContainsInMiddle(a: string, b: string, c: string, p: string, i: int)
    requires OccursAt(b, p, i)
    ensures Contains(a + (b + c), p)
  {
    OccursInConcat(b, c, p, i);
    OccursInConcat(a, b + c, p, i);
  }

  lemma ContainsInTail(a: string, b: string, c: string, p: string, i: int)
    requires OccursAt(c, p, i)
    ensures Contains(a + (b + c), p)
  {
    OccursInConcat(b, c, p, i);
    OccursInConcat(a, b + c, p, |b| + i);
  }

  lemma ContainsInHead(a: string, b: string, c: string, p: string, i: int)
    requires OccursAt(a, p, i)
    ensures Contains(a + (b + c), p)
  {
    OccursInConcat(a, b + c, p, i);
  }

  /** "WHERE" holds no G, so it cannot overlap the start of a "GROUP BY". */
  lemma NoWhereAcrossGroupBy(q: string, g: int, w: int)
    requires OccursAt(q, GroupBy, g) && OccursAt(q, Where, w)
    ensures w >= g || w + 5 <= g
  {
    assert q[g] == 'G';
    assert forall j :: w <= j < w + 5 ==> q[j] == Where[j - w];
  }

  /** An occurrence of a word without leading or trailing whitespace
      survives `strip`. */
  lemma OccursInStrip(s: string, p: string, i: int) returns (k: int)
    requires |p| > 0 && !IsSpace(p[0]) && !IsSpace(p[|p| - 1]) && OccursAt(s, p, i)
    ensures OccursAt(Strip(s), p, k)
  {
    var lo, hi := StripStart(s), StripEnd(s);
    assert s[i] == p[0];
    assert s[i + |p| - 1] == p[|p| - 1];
    assert lo <= i;
    assert i + |p| <= hi;
    k := i - lo;
    var r := Strip(s);
    assert r == s[lo..hi];
    assert forall j :: k <= j < k + |p| ==> r[j] == s[j + lo];
    assert r[k..k + |p|] == s[i..i + |p|];
  }

  /** The text `float()` is given: `line.split("actual time=")[1].split("..")[0]`. */
  function TimeText(line: string): string
    requires Contains(line, TimeMarker)
  {
    Before(Between(line, TimeMarker), RangeSep)
  }

  /** `t` is the time text of `line` when it starts at `s`: it sits there,
      holds neither separator, is followed by "..", the marker or the end of
      the line, and no ".." of the line starts inside it, so it ends at the
      first ".." after `s`. */
  predicate TimeFieldAt(line: string, s: int, t: string) {
    && 0 <= s && s + |t| <= |line| && line[s..s + |t|] == t
    && !Contains(t, RangeSep) && !Contains(t, TimeMarker)
    && (s + |t| == |line| || OccursAt(line, RangeSep, s + |t|) || OccursAt(line, TimeMarker, s + |t|))
    && forall j :: s <= j < s + |t| ==> !OccursAt(line, RangeSep, j)
  }

  /** `TimeText` is the text after the first "actual time=" of the line, up
      to the first ".." after it (or the next marker, or the end), and it
      holds neither separator. */
  lemma TimeTextShape(line: string)
    requires Contains(line, TimeMarker)
    ensures TimeFieldAt(line, Find(line, TimeMarker) + |TimeMarker|, TimeText(line))
  {
    var seg := Between(line, TimeMarker);
    TimeField(line, Find(line, TimeMarker) + |TimeMarker|, seg, Before(seg, RangeSep));
  }

  /** The time text for a field `seg` of `line` at `s` up to the next
      marker, with `t` cut from it at its first "..". */
  lemma TimeField(line: string, s: int, seg: string, t: string)
    requires FieldAt(line, TimeMarker, s, seg) && !Contains(seg, TimeMarker)
    requires t <= seg && !Contains(t, RangeSep) && (|t| == |seg| || OccursAt(seg, RangeSep, |t|))
    requires forall j :: 0 <= j < |t| ==> !OccursAt(seg, RangeSep, j)
    ensures TimeFieldAt(line, s, t)
  {
    FieldOfField(line, TimeMarker, RangeSep, s, seg, t);
    NoRangeAcrossEnd(line, s, |seg|, |t|);
  }

  /** If no ".." starts in `[s, s + n)` that ends by `s + m`, and position
      `s + m` is the end of the line or an "actual time=", then no ".."
      starts in `[s, s + n)` at all. */
  lemma NoRangeAcrossEnd(line: string, s: int, m: int, n: int)
    requires 0 <= s && 0 <= n <= m && (s + m == |line| || OccursAt(line, TimeMarker, s + m))
    requires forall j :: s <= j < s + n && j + |RangeSep| <= s + m ==> !OccursAt(line, RangeSep, j)
    ensures forall j :: s <= j < s + n ==> !OccursAt(line, RangeSep, j)
  {
    if 0 < n && n == m {
      MarkerEndsRange(line, s + m);
    }
  }

  /** A ".." cannot run into a following "actual time=" or past the end. */
  lemma MarkerEndsRange(line: string, e: int)
    requires 0 < e && (e == |line| || OccursAt(line, TimeMarker, e))
    ensures !OccursAt(line, RangeSep, e - 1)
  {
    if e < |line| {
      assert line[e] == line[e..e + |TimeMarker|][0] == 'a';
      assert line[e - 1..e + 1][1] == line[e];
    }
  }

  /** `line.split(m)[1].split(sep)[0]` for any two non-empty separators:
      `seg` is the field of `line` at `s` up to the next `m`, and `t` is cut
      from `seg` at its first `sep`. */
  lemma FieldOfField(line: string, m: string, sep: string, s: int, seg: string, t: string)
    requires |m| > 0 && |sep| > 0
    requires FieldAt(line, m, s, seg) && !Contains(seg, m)
    requires t <= seg && (|t| == |seg| || OccursAt(seg, sep, |t|))
    requires forall j :: 0 <= j < |t| ==> !OccursAt(seg, sep, j)
    ensures s + |t| <= |line| && line[s..s + |t|] == t
    ensures !Contains(t, m)
    ensures s + |t| == |line| || OccursAt(line, sep, s + |t|) || OccursAt(line, m, s + |t|)
    ensures forall j :: s <= j < s + |t| && j + |sep| <= s + |seg| ==> !OccursAt(line, sep, j)
  {
    PrefixInPlace(line, s, seg, t);
    PrefixAvoids(seg, t, m);
    if |t| < |seg| {
      SepInPlace(line, s, seg, sep, |t|);
    }
    NoSepInPlace(line, s, seg, sep, |t|);
  }

  /** If no `sep` starts in the first `n` positions of a text found at `s`,
      none starts there in `line` either, among those ending inside the text. */
  lemma NoSepInPlace(line: string, s: int, seg: string, sep: string, n: int)
    requires 0 <= s && s + |seg| <= |line| && line[s..s + |seg|] == seg
    requires forall j :: 0 <= j < n ==> !OccursAt(seg, sep, j)
    ensures forall j :: s <= j < s + n && j + |sep| <= s + |seg| ==> !OccursAt(line, sep, j)
  {
    forall j | s <= j < s + n && j + |sep| <= s + |seg|
      ensures !OccursAt(line, sep, j)
    {
      if OccursAt(line, sep, j) {
        SepFromPlace(line, s, seg, sep, j - s);
      }
    }
  }

  /** An occurrence in `line` that lies inside a text found at `s` is one
      in that text. */
  lemma SepFromPlace(line: string, s: int, seg: string, sep: string, k: int)
    requires 0 <= s && s + |seg| <= |line| && line[s..s + |seg|] == seg
    requires 0 <= k && k + |sep| <= |seg| && OccursAt(line, sep, s + k)
    ensures OccursAt(seg, sep, k)
  {
    assert forall j :: k <= j < k + |sep| ==> seg[j] == line[s + j];
    assert seg[k..k + |sep|] == line[s + k..s + k + |sep|];
  }

  /** A prefix `t` of a text `seg` found at `s` in `line` is found there too. */
  lemma PrefixInPlace(line: string, s: int, seg: string, t: string)
    requires 0 <= s && s + |seg| <= |line| && line[s..s + |seg|] == seg && t <= seg
    ensures s + |t| <= |line| && line[s..s + |t|] == t
  {
    assert line[s..s + |t|] == line[s..s + |seg|][..|t|];
  }

  /** A prefix of a text without `p` has no `p` either. */
  lemma PrefixAvoids(seg: string, t: string, p: string)
    requires t <= seg && !Contains(seg, p)
    ensures !Contains(t, p)
  {
    forall j | 0 <= j <= |t| - |p|
      ensures !OccursAt(t, p, j)
    {
      OccursInPrefix(seg, p, |t|, j);
      assert seg[..|t|] == t;
    }
  }

  /** An occurrence inside a text found at `s` in `line` is one in `line`. */
  lemma SepInPlace(line: string, s: int, seg: string, sep: string, k: int)
    requires 0 <= s && s + |seg| <= |line| && line[s..s + |seg|] == seg && OccursAt(seg, sep, k)
    ensures OccursAt(line, sep, s + k)
  {
    assert forall j :: k <= j < k + |sep| ==> seg[j] == line[s + j];
    assert seg[k..k + |sep|] == line[s + k..s + k + |sep|];
  }

  /** The rows `EXPLAIN ANALYZE` returns, or an exception from the database
      (bad SQL, aborted transaction, ...). */
  datatype ExecOutcome = Raised | Rows(plan: seq<seq<string>>)

  /** The time `step` reads off a plan: the `TimeText` of the first column
      of the last row parsed as a number, or 1000 ms when the plan or that
      row is empty, the marker is missing, or the text does not parse. */
  function PlanTime(plan: seq<seq<string>>, parse: string -> Option<real>): (t: real)
    ensures t != FallbackTime ==>
              && |plan| > 0 && |plan[|plan| - 1]| > 0
              && Contains(plan[|plan| - 1][0], TimeMarker)
              && parse(TimeText(plan[|plan| - 1][0])) == Some(t)
    ensures (|plan| == 0 || |plan[|plan| - 1]| == 0 || !Contains(plan[|plan| - 1][0], TimeMarker))
              ==> t == FallbackTime
    ensures (&& |plan| > 0 && |plan[|plan| - 1]| > 0 && Contains(plan[|plan| - 1][0], TimeMarker)
             && parse(TimeText(plan[|plan| - 1][0])).Some?)
              ==> t == parse(TimeText(plan[|plan| - 1][0])).value
  {
    if |plan| > 0 && |plan[|plan| - 1]| > 0 then
      var line := plan[|plan| - 1][0];
      if Contains(line, TimeMarker) then
        match parse(TimeText(line))
        case None => FallbackTime
        case Some(v) => v
      else FallbackTime
    else FallbackTime
  }

  /** The query text after an action; `add_where` on a never-reset
      environment (query `None`) raises. Adding an index is a schema
      change only and leaves the text alone. */
  function Rewrite(a: Action, q: Option<string>): (r: Result<Option<string>, EnvError>)
    ensures r.Err? <==> a == AddWhere && q.None?
    ensures a == AddIndex ==> r == Ok(q)
    ensures a == RewriteJoin ==> r == Ok(Some(BaseQuery))
    ensures a == RemoveSubquery ==> r == Ok(Some(NoFilterQuery))
    ensures a == AddWhere && q.Some? ==> r == Ok(Some(AddWhereText(q.value)))
  {
    match a
    case AddIndex => Ok(q)
    case RewriteJoin => Ok(Some(BaseQuery))
    case AddWhere => if q.None? then Err(TypeError) else Ok(Some(AddWhereText(q.value)))
    case RemoveSubquery => Ok(Some(NoFilterQuery))
  }

  /** The measured time of running the (rewritten) query. Every failure
      inside the `try` - no query text yet, the database raising, or an
      unparsable number - is charged 1000 ms; there is no timeout cap. */
  function ExecutionTime(q: Option<string>, run: string -> ExecOutcome, parse: string -> Option<real>): (t: real)
    ensures q.None? ==> t == FallbackTime
    ensures q.Some? && run("EXPLAIN ANALYZE " + q.value).Raised? ==> t == FallbackTime
    ensures q.Some? && run("EXPLAIN ANALYZE " + q.value).Rows? ==> t == PlanTime(run("EXPLAIN ANALYZE " + q.value).plan, parse)
  {
    match q
    case None => FallbackTime
    case Some(text) =>
      match run("EXPLAIN ANALYZE " + text)
      case Raised => FallbackTime
      case Rows(plan) => PlanTime(plan, parse)
  }

  /** What `reset` reads from the database: the number of sub-plans and the
      row estimate of the base query's plan, and the index count of lineitem. */
  datatype PlanFeatures = PlanFeatures(subPlans: nat, planRows: real, indexCount: nat)

  datatype Env = Env(query: Option<string>, state: Option<seq<real>>)

  /** `QueryEnv(...)` before any `reset`: no query and no state. */
  const Fresh: Env := Env(None, None)

  /** The 4-element state vector `reset` builds. */
  function ResetState(f: PlanFeatures): (s: seq<real>)
    ensures |s| == 4
    ensures s[0] == |BaseQuery| as real && s[3] == f.indexCount as real
    ensures s[1] == f.subPlans as real && s[2] == f.planRows
  {
    [|BaseQuery| as real, f.subPlans as real, f.planRows, f.indexCount as real]
  }

  /** The first component of every reset state is 133, the length of the
      base query. */
  lemma ResetStateLength(f: PlanFeatures)
    ensures ResetState(f)[0] == 133.0
  {
    assert |BaseQuery| == 133;
  }

  /** `reset()`: installs the fixed base query, whatever the query was. */
  function Reset(e: Env, f: PlanFeatures): (r: Env)
    ensures r.query == Some(BaseQuery)
    ensures r.state.Some? && |r.state.value| == 4
    ensures r.state == Some(ResetState(f))
  {
    Env(Some(BaseQuery), Some(ResetState(f)))
  }

  datatype StepResult = StepResult(env: Env, nextState: seq<real>, reward: real, done: bool)

  /** `step(action_idx)`: rewrites the query, charges the measured time as a
      negative reward, ends the episode below 10 ms, and always finishes
      with `reset()`, so the next state is the fresh 4-element state of the
      base query. */
  function Step(e: Env, idx: int, run: string -> ExecOutcome, parse: string -> Option<real>, f: PlanFeatures)
    : (r: Result<StepResult, EnvError>)
    ensures r.Err? <==> !(-|Actions| <= idx < |Actions|) || (ActionAt(idx) == Ok(AddWhere) && e.query.None?)
    ensures r.Ok? ==> && r.value.env == Reset(e, f)
                      && r.value.nextState == ResetState(f)
                      && r.value.env.state == Some(r.value.nextState)
    ensures r.Ok? ==> var t := ExecutionTime(Rewrite(ActionAt(idx).value, e.query).value, run, parse);
                      && r.value.reward == -t
                      && (r.value.done <==> t < DoneBelow)
  {
    var a :- ActionAt(idx);
    var q :- Rewrite(a, e.query);
    var t := ExecutionTime(q, run, parse);
    var next := Reset(e, f);
    Ok(StepResult(next, next.state.value, -t, t < DoneBelow))
  }

  /** A failed or unreadable execution is never terminal: it costs a reward
      of -1000 and the episode goes on. */
  lemma FallbackIsNotDone(e: Env, idx: int, run: string -> ExecOutcome, parse: string -> Option<real>, f: PlanFeatures)
    requires Step(e, idx, run, parse, f).Ok?
    requires ExecutionTime(Rewrite(ActionAt(idx).value, e.query).value, run, parse) == FallbackTime
    ensures Step(e, idx, run, parse, f).value.reward == -1000.0
    ensures !Step(e, idx, run, parse, f).value.done
  {
  }

  /** Before the first `reset` the query is `None`: `add_where` then raises
      TypeError on `"WHERE" in None`, while every other action succeeds. */
  lemma StepBeforeReset(run: string -> ExecOutcome, parse: string -> Option<real>, f: PlanFeatures, idx: int)
    requires -|Actions| <= idx < |Actions|
    ensures Step(Fresh, idx, run, parse, f).Err? <==> ActionAt(idx) == Ok(AddWhere)
    ensures ActionAt(idx) == Ok(AddWhere) ==> Step(Fresh, idx, run, parse, f) == Err(TypeError)
  {
  }

  /** Rewrites never accumulate: once an environment has taken a step, the
      outcome of its next step depends only on the action and on the
      database responses (`run` and the plan features), not on the query
      earlier steps left behind. */
  lemma StepForgetsHistory(e1: Env, e2: Env, i1: int, i2: int, idx: int,
                           run: string -> ExecOutcome, parse: string -> Option<real>,
                           f1: PlanFeatures, f2: PlanFeatures, f: PlanFeatures)
    requires Step(e1, i1, run, parse, f1).Ok? && Step(e2, i2, run, parse, f2).Ok?
    ensures Step(Step(e1, i1, run, parse, f1).value.env, idx, run, parse, f)
         == Step(Step(e2, i2, run, parse, f2).value.env, idx, run, parse, f)
  {
  }
}

=== FILE: Netoyage.dfy ===
/** The result filter of `netoyage.py`: keep the lowest execution time per
    query file, then write one row per file in ascending file-name order
    after a header. Reading and writing CSV is left out; the rows come in as
    a sequence and the output is a sequence of lines. */
module Netoyage {
  import opened PyText

  /** One input row: its `QueryFile` and its parsed `ExecutionTime_ms`. */
  datatype Row = Row(file: string, time: real)

  /** One output line: the header, or a file with its (rounded) best time. */
  datatype Line = Header(first: string, second: string) | Entry(file: string, time: real)

  const FileColumn := "QueryFile"
  const TimeColumn := "ExecutionTime_ms"

  /** Some row of `rows` is for file `f`. */
  predicate Seen(rows: seq<Row>, f: string) {
    exists k :: 0 <= k < |rows| && rows[k].file == f
  }

  /** A file is seen in `rows` iff it is seen before the last row or is the
      last row's file. */
  lemma SeenExtends(rows: seq<Row>)
    requires |rows| > 0
    ensures forall f :: Seen(rows, f) <==> Seen(rows[..|rows| - 1], f) || rows[|rows| - 1].file == f
  {
    var init := rows[..|rows| - 1];
    forall f | Seen(rows, f)
      ensures Seen(init, f) || rows[|rows| - 1].file == f
    {
      var k :| 0 <= k < |rows| && rows[k].file == f;
      if k < |init| {
        assert init[k] == rows[k];
      }
    }
    forall f | Seen(init, f)
      ensures Seen(rows, f)
    {
      var k :| 0 <= k < |init| && init[k].file == f;
      assert rows[k] == init[k];
    }
  }

  /** One iteration of the loop: a row replaces the stored time for its file
      only if the file is new or its time is strictly lower. */
  function Keep(best: map<string, real>, row: Row): map<string, real> {
    if row.file !in best || row.time < best[row.file] then best[row.file := row.time] else best
  }

  /** `best_times` after the loop over `rows`: it has an entry for exactly
      the files seen. */
  function BestTimes(rows: seq<Row>): (best: map<string, real>)
    ensures forall f :: f in best <==> Seen(rows, f)
  {
    if |rows| == 0 then map[]
    else
      SeenExtends(rows);
      Keep(BestTimes(rows[..|rows| - 1]), rows[|rows| - 1])
  }

  /** The stored time of a file is no larger than any time recorded for it. */
  lemma {:induction false} BestIsLowest(rows: seq<Row>)
    ensures forall k :: 0 <= k < |rows| ==> BestTimes(rows)[rows[k].file] <= rows[k].time
  {
    if |rows| > 0 {
      var n := |rows| - 1;
      var init := rows[..n];
      BestIsLowest(init);
      forall k | 0 <= k < n
        ensures BestTimes(rows)[rows[k].file] <= rows[k].time
      {
        assert init[k] == rows[k];
      }
    }
  }

  /** The stored time of a file is the time of one of its rows: the first
      row of that file to reach the minimum, since a later equal time does
      not pass the strict `<`. */
  lemma {:induction false} BestIsFirstLowest(rows: seq<Row>, f: string) returns (k: nat)
    requires f in BestTimes(rows)
    ensures k < |rows| && rows[k].file == f && rows[k].time == BestTimes(rows)[f]
    ensures forall j :: 0 <= j < k && rows[j].file == f ==> rows[j].time > rows[k].time
  {
    var n := |rows| - 1;
    var init := rows[..n];
    var prev := BestTimes(init);
    var row := rows[n];
    if f == row.file && (f !in prev || row.time < prev[f]) {
      k := n;
      forall j | 0 <= j < n && rows[j].file == f
        ensures rows[j].time > row.time
      {
        assert init[j] == rows[j];
        BestIsLowest(init);
        assert prev[init[j].file] <= init[j].time;
      }
    } else {
      k := BestIsFirstLowest(init, f);
      assert rows[k] == init[k];
      forall j | 0 <= j < k && rows[j].file == f
        ensures rows[j].time > rows[k].time
      {
        assert init[j] == rows[j];
      }
    }
  }

  /** The keys of `best_times` in insertion order, which is the order
      `best_times.items()` yields them: each file once, where it first
      occurs. */
  function FirstSeen(rows: seq<Row>): (ks: seq<string>)
    ensures Distinct(ks)
    ensures forall i :: 0 <= i < |ks| ==> Seen(rows, ks[i])
    ensures forall k :: 0 <= k < |rows| ==> rows[k].file in ks
  {
    if |rows| == 0 then []
    else
      var init := rows[..|rows| - 1];
      var row := rows[|rows| - 1];
      var prev := FirstSeen(init);
      SeenExtends(rows);
      assert forall k :: 0 <= k < |init| ==> init[k] == rows[k];
      if row.file in prev then prev else prev + [row.file]
  }

  predicate Distinct(s: seq<string>) {
    forall i, j :: 0 <= i < j < |s| ==> s[i] != s[j]
  }

  /** Strictly ascending in Python's string order. */
  predicate Ascending(s: seq<string>) {
    forall i, j :: 0 <= i < j < |s| ==> Less(s[i], s[j])
  }

  /** Puts `x` in front of the first element it is below, or at the end. */
  function Insert(x: string, s: seq<string>): (r: seq<string>)
    ensures multiset(r) == multiset(s) + multiset{x}
  {
    if |s| == 0 || Less(x, s[0]) then [x] + s
    else
      assert s == [s[0]] + s[1..];
      [s[0]] + Insert(x, s[1..])
  }

  /** Inserting a new element into an ascending sequence keeps it ascending. */
  lemma {:induction false} InsertAscending(x: string, s: seq<string>)
    requires Ascending(s) && x !in s
    ensures Ascending(Insert(x, s))
  {
    if |s| > 0 && Less(x, s[0]) {
      forall j | 0 < j < |s|
        ensures Less(x, s[j])
      {
        LessTransitive(x, s[0], s[j]);
      }
    } else if |s| > 0 {
      LessTotal(x, s[0]);
      InsertAscending(x, s[1..]);
      var rest := Insert(x, s[1..]);
      assert s == [s[0]] + s[1..];
      forall y | y in rest
        ensures Less(s[0], y)
      {
        assert y in multiset(rest);
        if y != x {
          assert y in multiset(s[1..]);
        }
      }
    }
  }

  /** Insertion sort: Python's `sorted` on strings. */
  function Sort(s: seq<string>): (r: seq<string>)
    ensures multiset(r) == multiset(s)
  {
    if |s| == 0 then []
    else
      assert s == s[..|s| - 1] + [s[|s| - 1]];
      Insert(s[|s| - 1], Sort(s[..|s| - 1]))
  }

  /** Sorting distinct strings gives a strictly ascending sequence. */
  lemma {:induction false} SortAscending(s: seq<string>)
    requires Distinct(s)
    ensures Ascending(Sort(s))
  {
    if |s| > 0 {
      var init := s[..|s| - 1];
      var x := s[|s| - 1];
      SortAscending(init);
      assert x !in multiset(init) by {
        assert forall i :: 0 <= i < |init| ==> init[i] == s[i] != x;
      }
      assert x !in multiset(Sort(init));
      InsertAscending(x, Sort(init));
    }
  }

  /** The files of `best_times` in the order `sorted(best_times.items())`
      visits them: exactly the keys (and ascending, as `SortedFilesAscending`
      shows). */
  function SortedFiles(rows: seq<Row>): (order: seq<string>)
    ensures forall i :: 0 <= i < |order| ==> order[i] in BestTimes(rows)
    ensures forall f :: f in BestTimes(rows) ==> f in order
  {
    var seen := FirstSeen(rows);
    var order := Sort(seen);
    forall i | 0 <= i < |order|
      ensures order[i] in BestTimes(rows)
    {
      assert order[i] in multiset(seen);
    }
    forall f | f in BestTimes(rows)
      ensures f in order
    {
      var k :| 0 <= k < |rows| && rows[k].file == f;
      assert f in multiset(seen);
    }
    order
  }

  lemma SortedFilesAscending(rows: seq<Row>)
    ensures Ascending(SortedFiles(rows))
  {
    SortAscending(FirstSeen(rows));
  }

  /** The filtered file: the header, then for each file in ascending order
      its best time passed through `round(·, 3)`. */
  function Filtered(rows: seq<Row>, round: real -> real): (lines: seq<Line>)
    ensures |lines| >= 1 && lines[0] == Header(FileColumn, TimeColumn)
    ensures forall i :: 1 <= i < |lines| ==> && lines[i].Entry? && lines[i].file in BestTimes(rows)
                                             && lines[i].time == round(BestTimes(rows)[lines[i].file])
  {
    [Header(FileColumn, TimeColumn)] + Entries(SortedFiles(rows), BestTimes(rows), round)
  }

  /** `writer.writerow([filename, round(time, 3)])` for each file in turn. */
  function Entries(order: seq<string>, best: map<string, real>, round: real -> real): (es: seq<Line>)
    requires forall i :: 0 <= i < |order| ==> order[i] in best
    ensures |es| == |order|
    ensures forall i :: 0 <= i < |order| ==> es[i] == Entry(order[i], round(best[order[i]]))
  {
    seq(|order|, i requires 0 <= i < |order| => Entry(order[i], round(best[order[i]])))
  }

  /** After the header come the files in strictly ascending order, so no
      file is written twice, and there are as many entries as files seen. */
  lemma FilteredAscending(rows: seq<Row>, round: real -> real)
    ensures var lines := Filtered(rows, round);
            && |lines| == |BestTimes(rows)| + 1
            && forall i, j :: 1 <= i < j < |lines| ==> Less(lines[i].file, lines[j].file)
  {
    var order := SortedFiles(rows);
    var es := Entries(order, BestTimes(rows), round);
    assert Filtered(rows, round) == [Header(FileColumn, TimeColumn)] + es;
    SortedFilesAscending(rows);
    KeyCount(order, BestTimes(rows).Keys);
  }

  /** A file has an entry exactly when some input row names it. */
  lemma FilteredCoversSeen(rows: seq<Row>, round: real -> real, f: string)
    ensures Seen(rows, f) <==> exists i :: 1 <= i < |Filtered(rows, round)| && Filtered(rows, round)[i].file == f
  {
    if Seen(rows, f) {
      assert f in BestTimes(rows);
      var i := EntryOf(rows, round, f);
    }
  }

  /** Where the entry of a file of `best_times` is. */
  lemma EntryOf(rows: seq<Row>, round: real -> real, f: string) returns (i: nat)
    requires f in BestTimes(rows)
    ensures 1 <= i < |Filtered(rows, round)| && Filtered(rows, round)[i].file == f
  {
    var order := SortedFiles(rows);
    var k :| 0 <= k < |order| && order[k] == f;
    EntryAt(rows, round, k);
    i := k + 1;
  }

  /** Entry `k + 1` of the output is the `k`-th file in sorted order. */
  lemma EntryAt(rows: seq<Row>, round: real -> real, k: nat)
    requires k < |SortedFiles(rows)|
    ensures k + 1 < |Filtered(rows, round)| && Filtered(rows, round)[k + 1].file == SortedFiles(rows)[k]
  {
    var es := Entries(SortedFiles(rows), BestTimes(rows), round);
    assert Filtered(rows, round)[k + 1] == es[k];
  }

  /** An ascending sequence that covers exactly a set is as long as the set
      is large. */
  lemma {:induction false} KeyCount(s: seq<string>, keys: set<string>)
    requires Ascending(s)
    requires forall i :: 0 <= i < |s| ==> s[i] in keys
    requires forall f :: f in keys ==> f in s
    ensures |s| == |keys|
  {
    if |s| > 0 {
      var rest := s[1..];
      forall i | 0 <= i < |rest|
        ensures rest[i] in keys - {s[0]}
      {
        LessTotal(s[0], rest[i]);
      }
      forall f | f in keys - {s[0]}
        ensures f in rest
      {
        var i :| 0 <= i < |s| && s[i] == f;
        assert i != 0;
        assert rest[i - 1] == f;
      }
      KeyCount(rest, keys - {s[0]});
    }
  }
}

=== FILE: Outcomes.dfy ===
/** Failure-compatible result type shared by the model: a Python call that
    raises is modelled as an `Err` carrying which exception it raised. */
module Outcomes {

  datatype Option<+T> = None | Some(value: T)

  datatype Result<+T, +E> = Ok(value: T) | Err(error: E) {

    predicate IsFailure() {
      Err?
    }

    function PropagateFailure<U>(): Result<U, E>
      requires Err?
    {
      Err(error)
    }

    function Extract(): T
      requires Ok?
    {
      value
    }
  }

  /** Python's `seq[idx]` for a list or deque of length `n`: negative indices
      count from the end, anything else out of range raises IndexError. */
  function PyIndex(idx: int, n: nat): (r: Option<nat>)
    ensures r.Some? <==> -(n as int) <= idx < n
    ensures r.Some? ==> r.value < n && (r.value == idx || r.value == idx + n)
    ensures 0 <= idx < n ==> r == Some(idx)
  {
    if 0 <= idx < n then Some(idx)
    else if -(n as int) <= idx < 0 then Some(idx + n)
    else None
  }

  function Min(a: int, b: int): int {
    if a <= b then a else b
  }

  /** Python's `a % b`: the remainder takes the sign of the divisor (Dafny's
      `%` is Euclidean, so the two differ for a negative divisor). It differs
      from `a` by a multiple of `b`, and together with the sign clauses this
      fixes Python's value. */
  function PyMod(a: int, b: int): (r: int)
    requires b != 0
    ensures b > 0 ==> 0 <= r < b
    ensures b < 0 ==> b < r <= 0
    ensures r == 0 <==> a % b == 0
    ensures r == a % b || r == a % b + b
  {
    var e := a % b;
    if b < 0 && e != 0 then e + b else e
  }
}

=== FILE: PyText.dfy ===
/** The handful of Python `str` operations the environment and the result
    filter rely on: `in`, `find`, `strip`, `split(sep)[k]` and `<`. Strings
    are sequences of code points; there is no normalisation or case folding. */
module PyText {

  /** `p` occurs in `s` starting at position `i`. */
  predicate OccursAt(s: string, p: string, i: int) {
    0 <= i && i + |p| <= |s| && s[i..i + |p|] == p
  }

  /** Python's `p in s`. */
  predicate Contains(s: string, p: string) {
    exists i :: 0 <= i <= |s| - |p| && OccursAt(s, p, i)
  }

  /** Python's `s.find(p, from)`: the first occurrence at or after `from`. */
  function FindFrom(s: string, p: string, from: nat): (r: int)
    requires from <= |s|
    ensures r == -1 || (from <= r && OccursAt(s, p, r))
    ensures r == -1 ==> forall j :: from <= j <= |s| - |p| ==> !OccursAt(s, p, j)
    ensures r != -1 ==> forall j :: from <= j < r ==> !OccursAt(s, p, j)
    decreases |s| - from
  {
    if |s| - from < |p| then -1
    else if s[from..from + |p|] == p then from
    else if from == |s| then -1
    else FindFrom(s, p, from + 1)
  }

  /** Python's `s.find(p)`: the index of the first occurrence of `p`, or -1. */
  function Find(s: string, p: string): (r: int)
    ensures r == -1 <==> !Contains(s, p)
    ensures r != -1 ==> OccursAt(s, p, r) && forall j :: 0 <= j < r ==> !OccursAt(s, p, j)
  {
    var r := FindFrom(s, p, 0);
    if r == -1 then
      assert !Contains(s, p);
      r
    else
      r
  }

  /** The characters Python's `str.isspace` accepts. */
  predicate IsSpace(c: char) {
    ('\U{0009}' <= c <= '\U{000D}') || ('\U{001C}' <= c <= '\U{0020}')
    || c == '\U{0085}' || c == '\U{00A0}' || c == '\U{1680}'
    || ('\U{2000}' <= c <= '\U{200A}') || c == '\U{2028}' || c == '\U{2029}'
    || c == '\U{202F}' || c == '\U{205F}' || c == '\U{3000}'
  }

  predicate AllSpace(s: string) {
    forall i :: 0 <= i < |s| ==> IsSpace(s[i])
  }

  /** Number of leading whitespace characters of `s`. */
  function LeadingSpace(s: string): (n: nat)
    ensures n <= |s|
    ensures AllSpace(s[..n])
    ensures n < |s| ==> !IsSpace(s[n])
  {
    if |s| == 0 || !IsSpace(s[0]) then 0
    else
      var k := LeadingSpace(s[1..]);
      assert s[1..][..k] == s[1..k + 1];
      1 + k
  }

  /** Number of trailing whitespace characters of `s`. */
  function TrailingSpace(s: string): (n: nat)
    ensures n <= |s|
    ensures AllSpace(s[|s| - n..])
    ensures n < |s| ==> !IsSpace(s[|s| - n - 1])
  {
    if |s| == 0 || !IsSpace(s[|s| - 1]) then 0
    else
      var k := TrailingSpace(s[..|s| - 1]);
      assert s[..|s| - 1][|s| - 1 - k..] == s[|s| - 1 - k..|s| - 1];
      1 + k
  }

  /** Where `s.strip()` starts: after the leading whitespace. */
  function StripStart(s: string): (lo: nat)
    ensures lo <= |s|
    ensures forall j :: 0 <= j < lo ==> IsSpace(s[j])
    ensures lo < |s| ==> !IsSpace(s[lo])
  {
    var n := LeadingSpace(s);
    assert forall j :: 0 <= j < n ==> s[..n][j] == s[j];
    n
  }

  /** Where `s.strip()` ends: before the trailing whitespace. */
  function StripEnd(s: string): (hi: nat)
    ensures StripStart(s) <= hi <= |s|
    ensures forall j :: hi <= j < |s| ==> IsSpace(s[j])
    ensures StripStart(s) < hi ==> !IsSpace(s[hi - 1])
  {
    if StripStart(s) == |s| then |s|
    else
      var n := TrailingSpace(s);
      assert forall j :: |s| - n <= j < |s| ==> s[|s| - n..][j - (|s| - n)] == s[j];
      |s| - n
  }

  /** Python's `s.strip()`: the slice of `s` between its leading and its
      trailing whitespace. Everything cut is whitespace, and a non-empty
      result starts and ends with a non-whitespace character. */
  function Strip(s: string): (r: string)
    ensures r == s[StripStart(s)..StripEnd(s)]
    ensures |r| > 0 ==> !IsSpace(r[0]) && !IsSpace(r[|r| - 1])
  {
    s[StripStart(s)..StripEnd(s)]
  }

  /** An occurrence that ends by `k` is one in `s[..k]` too. */
  lemma OccursInPrefix(s: string, p: string, k: int, j: int)
    requires 0 <= j && j + |p| <= k <= |s|
    ensures OccursAt(s[..k], p, j) <==> OccursAt(s, p, j)
  {
    assert s[..k][j..j + |p|] == s[j..j + |p|];
  }

  /** `s.split(sep)[0]`: the text before the first `sep`, or all of `s`. It
      is a prefix of `s`, holds no `sep`, is followed by `sep` or the end,
      and no `sep` of `s` starts inside it, so the cut is at the first one. */
  function Before(s: string, sep: string): (r: string)
    requires |sep| > 0
    ensures r <= s
    ensures !Contains(r, sep)
    ensures |r| == |s| || OccursAt(s, sep, |r|)
    ensures forall j :: 0 <= j < |r| ==> !OccursAt(s, sep, j)
  {
    var i := Find(s, sep);
    if i == -1 then s
    else
      var r := s[..i];
      assert !Contains(r, sep) by {
        forall j | 0 <= j <= |r| - |sep|
          ensures !OccursAt(r, sep, j)
        {
          OccursInPrefix(s, sep, i, j);
        }
      }
      r
  }

  /** `s.split(sep)[1]` when `sep` occurs in `s`: the text between the first
      `sep` and the next one (or the end). No `sep` starts inside it. */
  function Between(s: string, sep: string): (r: string)
    requires |sep| > 0 && Contains(s, sep)
    ensures FieldAt(s, sep, Find(s, sep) + |sep|, r)
    ensures !Contains(r, sep)
  {
    var k := Find(s, sep) + |sep|;
    BetweenField(s, sep, k);
    Before(s[k..], sep)
  }

  /** The field after the first `sep` sits in `s` where it was cut. */
  lemma BetweenField(s: string, sep: string, k: int)
    requires |sep| > 0 && Contains(s, sep) && k == Find(s, sep) + |sep|
    ensures k <= |s| && FieldAt(s, sep, k, Before(s[k..], sep))
  {
    FieldInPlace(s, sep, k, Before(s[k..], sep));
  }

  /** `r` is the field of `s` that starts at `k` and runs to the first
      `sep` at or after `k`, or to the end: it sits at `k`, is followed by
      `sep` or the end, and no `sep` starts inside it. */
  predicate FieldAt(s: string, sep: string, k: int, r: string) {
    && 0 <= k && k + |r| <= |s| && s[k..k + |r|] == r
    && (k + |r| == |s| || OccursAt(s, sep, k + |r|))
    && forall j :: k <= j < k + |r| ==> !OccursAt(s, sep, j)
  }

  /** A field cut from `s[k..]` at its first `sep`, read back in `s`. */
  lemma FieldInPlace(s: string, sep: string, k: int, r: string)
    requires 0 <= k <= |s| && r <= s[k..]
    requires |r| == |s| - k || OccursAt(s[k..], sep, |r|)
    requires forall j :: 0 <= j < |r| ==> !OccursAt(s[k..], sep, j)
    ensures FieldAt(s, sep, k, r)
  {
    assert s[k..k + |r|] == s[k..][..|r|];
    if |r| < |s| - k {
      OccursInSuffix(s, sep, k, |r|);
    }
    forall j | k <= j < k + |r|
      ensures !OccursAt(s, sep, j)
    {
      OccursInSuffix(s, sep, k, j - k);
    }
  }

  /** An occurrence in `s[k..]` is one in `s`, shifted by `k`. */
  lemma OccursInSuffix(s: string, p: string, k: int, j: int)
    requires 0 <= k <= |s| && 0 <= j
    ensures OccursAt(s[k..], p, j) <==> OccursAt(s, p, k + j)
  {
    if k + j + |p| <= |s| {
      assert s[k..][j..j + |p|] == s[k + j..k + j + |p|];
    }
  }

  /** Python's `a < b` on strings: lexicographic by code point, a proper
      prefix being smaller. */
  predicate Less(a: string, b: string) {
    if |a| == 0 then |b| > 0
    else if |b| == 0 then false
    else if a[0] != b[0] then a[0] < b[0]
    else Less(a[1..], b[1..])
  }

  /** `Less` is a strict total order: never both ways, and one way between
      any two distinct strings. */
  lemma {:induction false} LessTotal(a: string, b: string)
    ensures !(Less(a, b) && Less(b, a))
    ensures a != b ==> Less(a, b) || Less(b, a)
    ensures !Less(a, a)
  {
    if |a| > 0 && |b| > 0 && a[0] == b[0] {
      LessTotal(a[1..], b[1..]);
      assert a != b ==> a[1..] != b[1..] by {
        if a[1..] == b[1..] {
          assert a == [a[0]] + a[1..] && b == [b[0]] + b[1..];
        }
      }
    }
    if |a| > 0 {
      LessTotal(a[1..], a[1..]);
    }
  }

  /** `Less` is transitive. */
  lemma {:induction false} LessTransitive(a: string, b: string, c: string)
    requires Less(a, b) && Less(b, c)
    ensures Less(a, c)
  {
    if |a| > 0 && |b| > 0 && |c| > 0 && a[0] == b[0] && b[0] == c[0] {
      LessTransitive(a[1..], b[1..], c[1..]);
    }
  }
}

=== FILE: ReplayBuffer.dfy ===
/** The prioritized experience-replay buffer: two parallel bounded FIFO
    sequences (transitions and their priorities) sharing one capacity.
    Python's `deque(maxlen=capacity)` becomes a `seq` that drops its oldest
    element when an append would exceed the capacity. Real exponentiation
    `x ** a` is an abstract function `pow`, and the indices numpy draws at
    random are an input of `Sample`. */
module ReplayBuffer {
  import opened Outcomes

  /** The default exponent that skews sampling towards high priorities. */
  const DefaultAlpha: real := 0.6
  /** The error `add` assumes when its caller gives none. */
  const DefaultError: real := 1.0
  /** The constant `update_priorities` adds to an error (and `add` does not). */
  const PriorityEpsilon: real := 0.00001

  /** The facts about real exponentiation `pow(x, a) == x ** a` the model
      relies on: positive bases give positive powers, one to any power is
      one, and zero to a positive power is zero. */
  ghost predicate PowLaws(pow: (real, real) -> real) {
    && (forall x, a :: 0.0 < x ==> 0.0 < pow(x, a))
    && (forall a :: pow(1.0, a) == 1.0)
    && (forall a :: 0.0 < a ==> pow(0.0, a) == 0.0)
  }

  datatype Buffer<T> = Buffer(capacity: nat, alpha: real, items: seq<T>, priorities: seq<real>)
  {
    /** The two deques have equal length, bounded by the capacity. */
    predicate Valid() {
      |items| == |priorities| <= capacity
    }

    /** `size()`: the number of stored transitions. */
    function Size(): nat {
      |items|
    }
  }

  /** `PrioritizedReplayBuffer(capacity, alpha)`: two empty deques. */
  function Create<T>(capacity: nat, alpha: real): (b: Buffer<T>)
    ensures b.Valid() && b.Size() == 0
    ensures b.capacity == capacity && b.alpha == alpha
  {
    Buffer(capacity, alpha, [], [])
  }

  /** `deque(maxlen=cap).append(x)`: the result is the newest
      `min(|s| + 1, cap)` elements of `s + [x]`, so the oldest one is dropped
      exactly when the deque was full. */
  function BoundedAppend<X>(s: seq<X>, x: X, cap: nat): (r: seq<X>)
    requires |s| <= cap
    ensures |r| == Min(|s| + 1, cap)
    ensures r == (s + [x])[|s| + 1 - |r|..]
  {
    if |s| < cap then s + [x]
    else if cap == 0 then []
    else s[1..] + [x]
  }

  /** `add(transition, error)`: appends the transition and the priority
      `pow(error, alpha)` to both deques, evicting the oldest pair when full. */
  function Add<T>(b: Buffer<T>, pow: (real, real) -> real, t: T, error: real): (r: Buffer<T>)
    requires b.Valid()
    ensures r.Valid()
    ensures r.capacity == b.capacity && r.alpha == b.alpha
    ensures r.Size() == Min(b.Size() + 1, b.capacity)
    ensures b.capacity > 0 ==> r.items[|r.items| - 1] == t
    ensures b.capacity > 0 ==> r.priorities[|r.priorities| - 1] == pow(error, b.alpha)
    ensures b.Size() < b.capacity ==> r.items == b.items + [t]
    ensures b.Size() < b.capacity ==> r.priorities == b.priorities + [pow(error, b.alpha)]
    ensures 0 < b.Size() == b.capacity ==> r.items == b.items[1..] + [t]
    ensures 0 < b.Size() == b.capacity ==> r.priorities == b.priorities[1..] + [pow(error, b.alpha)]
  {
    b.(items := BoundedAppend(b.items, t, b.capacity),
       priorities := BoundedAppend(b.priorities, pow(error, b.alpha), b.capacity))
  }

  /** The default error 1.0 stores priority exactly 1. */
  lemma DefaultErrorGivesUnitPriority<T>(b: Buffer<T>, pow: (real, real) -> real, t: T)
    requires b.Valid() && b.capacity > 0 && PowLaws(pow)
    ensures var r := Add(b, pow, t, DefaultError); r.priorities[|r.priorities| - 1] == 1.0
  {
  }

  /** `add` puts no epsilon under the exponent: an error of 0 stores a zero
      priority, which the sampling distribution then never draws unless every
      priority is zero. */
  lemma AddZeroErrorStoresZeroPriority<T>(b: Buffer<T>, pow: (real, real) -> real, t: T)
    requires b.Valid() && b.capacity > 0 && b.alpha > 0.0 && PowLaws(pow)
    ensures var r := Add(b, pow, t, 0.0); r.priorities[|r.priorities| - 1] == 0.0
  {
  }

  /** Adding `k` transitions to a buffer leaves exactly the newest
      `min(size + k, capacity)` of the old contents followed by them. */
  function AddAll<T>(b: Buffer<T>, pow: (real, real) -> real, ts: seq<T>, errors: seq<real>): (r: Buffer<T>)
    requires b.Valid() && |ts| == |errors|
    ensures r.Valid() && r.capacity == b.capacity && r.alpha == b.alpha
    ensures r.Size() == Min(b.Size() + |ts|, b.capacity)
    ensures r.items == (b.items + ts)[b.Size() + |ts| - r.Size()..]
    decreases |ts|
  {
    if |ts| == 0 then b
    else
      var t := ts[|ts| - 1];
      var prev := AddAll(b, pow, ts[..|ts| - 1], errors[..|errors| - 1]);
      var r := Add(prev, pow, t, errors[|errors| - 1]);
      assert r.items == BoundedAppend(prev.items, t, prev.capacity);
      SuffixOfAppend(b.items, ts, prev.items, r.items);
      r
  }

  /** One more append keeps "the newest elements" shape of a bounded deque. */
  lemma SuffixOfAppend<X>(s: seq<X>, ts: seq<X>, p: seq<X>, r: seq<X>)
    requires |ts| > 0
    requires |s| + |ts| - 1 >= |p| && p == (s + ts[..|ts| - 1])[|s| + |ts| - 1 - |p|..]
    requires |r| <= |p| + 1 && r == (p + [ts[|ts| - 1]])[|p| + 1 - |r|..]
    ensures r == (s + ts)[|s| + |ts| - |r|..]
  {
    var full := s + ts;
    var x := |full| - 1 - |p|;
    assert s + ts[..|ts| - 1] == full[..|full| - 1];
    assert p == full[x..|full| - 1];
    assert p + [ts[|ts| - 1]] == full[x..];
    assert r == full[x..][|p| + 1 - |r|..];
  }

  function Sum(s: seq<real>): real {
    if |s| == 0 then 0.0 else s[0] + Sum(s[1..])
  }

  lemma {:induction false} SumOfQuotients(s: seq<real>, d: real)
    requires d != 0.0
    ensures Sum(seq(|s|, i requires 0 <= i < |s| => s[i] / d)) == Sum(s) / d
  {
    var q := seq(|s|, i requires 0 <= i < |s| => s[i] / d);
    if |s| > 0 {
      var t := s[1..];
      assert q[1..] == seq(|t|, i requires 0 <= i < |t| => t[i] / d);
      SumOfQuotients(t, d);
      assert s[0] / d + Sum(t) / d == (s[0] + Sum(t)) / d;
    }
  }

  lemma {:induction false} SumOfConstant(n: nat, c: real)
    ensures Sum(seq(n, _ => c)) == n as real * c
  {
    if n > 0 {
      assert seq(n, _ => c)[1..] == seq(n - 1, _ => c);
      SumOfConstant(n - 1, c);
    }
  }

  /** The sampling distribution of `sample`: priorities divided by their
      sum, or uniform when the sum is zero. Either way it sums to one. */
  function Probabilities(ps: seq<real>): (r: seq<real>)
    requires |ps| > 0
    ensures |r| == |ps|
    ensures Sum(r) == 1.0
    ensures Sum(ps) == 0.0 ==> forall i :: 0 <= i < |r| ==> r[i] == 1.0 / |ps| as real
    ensures Sum(ps) != 0.0 ==> forall i :: 0 <= i < |r| ==> r[i] == ps[i] / Sum(ps)
  {
    var total := Sum(ps);
    if total == 0.0 then Uniform(|ps|) else Scaled(ps, total)
  }

  /** `np.ones(n) / n`. */
  function Uniform(n: nat): (r: seq<real>)
    requires n > 0
    ensures |r| == n && Sum(r) == 1.0
    ensures forall i :: 0 <= i < n ==> r[i] == 1.0 / n as real
  {
    SumOfConstant(n, 1.0 / n as real);
    UnitFraction(n as real);
    seq(n, _ => 1.0 / n as real)
  }

  /** `ps / total`. */
  function Scaled(ps: seq<real>, total: real): (r: seq<real>)
    requires total != 0.0 && Sum(ps) == total
    ensures |r| == |ps| && Sum(r) == 1.0
    ensures forall i :: 0 <= i < |r| ==> r[i] == ps[i] / total
  {
    SumOfQuotients(ps, total);
    UnitFraction(total);
    seq(|ps|, i requires 0 <= i < |ps| => ps[i] / total)
  }

  lemma UnitFraction(d: real)
    requires d != 0.0
    ensures d * (1.0 / d) == 1.0 && d / d == 1.0
  {
  }

  /** With no priority information at all (every priority zero) the
      distribution is uniform. */
  lemma {:induction false} AllZeroIsUniform(ps: seq<real>)
    requires |ps| > 0 && forall i :: 0 <= i < |ps| ==> ps[i] == 0.0
    ensures forall i :: 0 <= i < |ps| ==> Probabilities(ps)[i] == 1.0 / |ps| as real
  {
    assert Sum(ps) == 0.0 by { SumOfZeros(ps); }
  }

  lemma {:induction false} SumOfZeros(ps: seq<real>)
    requires forall i :: 0 <= i < |ps| ==> ps[i] == 0.0
    ensures Sum(ps) == 0.0
  {
    if |ps| > 0 {
      SumOfZeros(ps[1..]);
    }
  }

  /** The largest element of a non-empty sequence: it is one of the elements
      and no element exceeds it. */
  function MaxOf(s: seq<real>): (m: real)
    requires |s| > 0
    ensures exists k :: 0 <= k < |s| && s[k] == m
    ensures forall k :: 0 <= k < |s| ==> s[k] <= m
  {
    if |s| == 1 then s[0]
    else
      var m := MaxOf(s[1..]);
      assert forall k :: 1 <= k < |s| ==> s[k] == s[1..][k - 1];
      if s[0] > m then s[0] else m
  }

  /** What `np.random.choice(n, batchSize, p=probs)` can return: `batchSize`
      indices, each in range and of positive probability. */
  predicate IsDraw(drawn: seq<int>, probs: seq<real>, batchSize: nat) {
    && |drawn| == batchSize
    && forall k :: 0 <= k < |drawn| ==> 0 <= drawn[k] < |probs| && probs[drawn[k]] > 0.0
  }

  /** The importance weight of each drawn index, before normalisation. They are all positive because only indices of
      positive probability are drawn. */
  function RawWeights(pow: (real, real) -> real, probs: seq<real>, drawn: seq<int>, beta: real): (raw: seq<real>)
    requires PowLaws(pow)
    requires forall k :: 0 <= k < |drawn| ==> 0 <= drawn[k] < |probs| && probs[drawn[k]] > 0.0
    ensures |raw| == |drawn|
    ensures forall k :: 0 <= k < |raw| ==> raw[k] > 0.0
    ensures forall k :: 0 <= k < |raw| ==> raw[k] == RawWeight(pow, |probs|, probs[drawn[k]], beta)
  {
    var raw := seq(|drawn|, k requires 0 <= k < |drawn| => RawWeight(pow, |probs|, probs[drawn[k]], beta));
    forall k | 0 <= k < |raw|
      ensures raw[k] > 0.0
    {
      PositiveProduct(|probs| as real, probs[drawn[k]]);
    }
    raw
  }

  lemma PositiveProduct(a: real, b: real)
    requires a > 0.0 && b > 0.0
    ensures a * b > 0.0
  {
  }

  /** The importance weight `(n * p) ** (-beta)` of an index of probability `p`. */
  function RawWeight(pow: (real, real) -> real, n: nat, p: real, beta: real): real {
    pow(n as real * p, -beta)
  }

  /** `sample` raises when the buffer is empty, and `weights.max()` raises
      on the empty batch a zero `batch_size` draws. */
  datatype SampleError = EmptyBuffer | EmptyBatch

  datatype Sampled<T> = Sampled(batch: seq<T>, weights: seq<real>, indices: seq<int>)

  /** `sample(batch_size, beta)` for the given random draw. Only an empty
      buffer is refused: a buffer smaller than the batch is sampled with
      replacement. The batch holds the drawn transitions in draw order, and
      the weights are the raw importance weights scaled so that their
      largest is exactly 1. */
  function Sample<T>(b: Buffer<T>, pow: (real, real) -> real, batchSize: nat, beta: real, drawn: seq<int>)
    : (r: Result<Sampled<T>, SampleError>)
    requires b.Valid() && PowLaws(pow)
    requires |b.items| > 0 ==> IsDraw(drawn, Probabilities(b.priorities), batchSize)
    ensures r == Err(EmptyBuffer) <==> b.Size() == 0
    ensures r == Err(EmptyBatch) <==> b.Size() > 0 && batchSize == 0
    ensures r.Ok? ==> && |r.value.batch| == |r.value.weights| == |r.value.indices| == batchSize
                      && r.value.indices == drawn
                      && forall k :: 0 <= k < batchSize ==> 0 <= drawn[k] < b.Size() && r.value.batch[k] == b.items[drawn[k]]
    ensures r.Ok? ==> forall k :: 0 <= k < batchSize ==> 0.0 < r.value.weights[k] <= 1.0
    ensures r.Ok? ==> exists k :: 0 <= k < batchSize && r.value.weights[k] == 1.0
    ensures r.Ok? ==> var raw := RawWeights(pow, Probabilities(b.priorities), drawn, beta);
                      forall k :: 0 <= k < batchSize ==> r.value.weights[k] == raw[k] / MaxOf(raw)
  {
    if |b.items| == 0 then Err(EmptyBuffer)
    else if batchSize == 0 then Err(EmptyBatch)
    else
      var batch := seq(batchSize, k requires 0 <= k < batchSize => b.items[drawn[k]]);
      var raw := RawWeights(pow, Probabilities(b.priorities), drawn, beta);
      Ok(Sampled(batch, Normalise(raw), drawn))
  }

  /** `weights /= weights.max()` on positive weights: every weight lands in
      (0, 1] and the largest becomes exactly 1. */
  function Normalise(raw: seq<real>): (w: seq<real>)
    requires |raw| > 0 && forall k :: 0 <= k < |raw| ==> raw[k] > 0.0
    ensures |w| == |raw|
    ensures forall k :: 0 <= k < |w| ==> 0.0 < w[k] <= 1.0
    ensures exists k :: 0 <= k < |w| && w[k] == 1.0
    ensures forall k :: 0 <= k < |w| ==> w[k] == raw[k] / MaxOf(raw)
  {
    var top := MaxOf(raw);
    var w := seq(|raw|, k requires 0 <= k < |raw| => raw[k] / top);
    forall k | 0 <= k < |w|
      ensures 0.0 < w[k] <= 1.0
    {
      ScaledDown(raw[k], top);
    }
    var kMax :| 0 <= kMax < |raw| && raw[kMax] == top;
    ScaledDown(top, top);
    assert w[kMax] == 1.0;
    w
  }

  lemma ScaledDown(a: real, m: real)
    requires 0.0 < a <= m
    ensures 0.0 < a / m <= 1.0 && (a / m) * m == a
  {
  }

  /** `update_priorities` raises IndexError on a slot outside the deque. */
  datatype UpdateError = IndexOutOfRange

  /** `after` is `before` with `vals[k]` written to slot `slots[k]` for
      k = 0, 1, ... in turn: a slot written several times holds the value of
      its last write, and a slot never written keeps its old value. */
  predicate LastWriteWins(before: seq<real>, after: seq<real>, slots: seq<nat>, vals: seq<real>)
    requires |slots| == |vals| && |after| == |before|
    requires forall k :: 0 <= k < |slots| ==> slots[k] < |before|
  {
    && (forall k :: 0 <= k < |slots| && (forall k' :: k < k' < |slots| ==> slots[k'] != slots[k])
         ==> after[slots[k]] == vals[k])
    && (forall j :: 0 <= j < |before| && (forall k :: 0 <= k < |slots| ==> slots[k] != j)
         ==> after[j] == before[j])
  }

  /** Writes `vals[k]` to slot `slots[k]` for k = 0, 1, ... in turn: a slot
      written several times keeps the value of its last write, and a slot
      never written keeps its old value. */
  function Overwrite(ps: seq<real>, slots: seq<nat>, vals: seq<real>): (r: seq<real>)
    requires |slots| == |vals|
    requires forall k :: 0 <= k < |slots| ==> slots[k] < |ps|
    ensures |r| == |ps|
    ensures LastWriteWins(ps, r, slots, vals)
    decreases |slots|
  {
    if |slots| == 0 then ps
    else
      var m := |slots| - 1;
      Overwrite(ps, slots[..m], vals[..m])[slots[m] := vals[m]]
  }

  /** Every index of the first `m` resolves to a slot of a deque of length `n`. */
  predicate InRange(indices: seq<int>, n: nat, m: nat)
    requires m <= |indices|
  {
    forall k :: 0 <= k < m ==> PyIndex(indices[k], n).Some?
  }

  /** The deque slots `zip(indices, errors)` writes, in order: Python
      indices resolved against a deque of length `n`. */
  function Slots(indices: seq<int>, n: nat, m: nat): (s: seq<nat>)
    requires m <= |indices| && InRange(indices, n, m)
    ensures |s| == m
    ensures forall k :: 0 <= k < m ==> s[k] < n && PyIndex(indices[k], n) == Some(s[k])
  {
    seq(m, k requires 0 <= k < m => PyIndex(indices[k], n).value)
  }

  /** `update_priorities(indices, errors)`: for each pair of `zip(indices,
      errors)` in order, sets the priority at that (Python-style, possibly
      negative) index to `pow(error + 1e-5, alpha)`; the last write to a slot
      wins and nothing else changes. Any index outside the deque raises. */
  function UpdatePriorities<T>(b: Buffer<T>, pow: (real, real) -> real, indices: seq<int>, errors: seq<real>)
    : (r: Result<Buffer<T>, UpdateError>)
    requires b.Valid()
    ensures r.Ok? <==> InRange(indices, b.Size(), Min(|indices|, |errors|))
    ensures r.Ok? ==> && r.value.Valid() && r.value.items == b.items
                      && r.value.capacity == b.capacity && r.value.alpha == b.alpha
    ensures r.Ok? ==> var m := Min(|indices|, |errors|);
                      LastWriteWins(b.priorities, r.value.priorities, Slots(indices, b.Size(), m),
                                    Refreshed(pow, errors, b.alpha, m))
  {
    var m := Min(|indices|, |errors|);
    if !InRange(indices, b.Size(), m) then Err(IndexOutOfRange)
    else
      var ps := Overwrite(b.priorities, Slots(indices, b.Size(), m), Refreshed(pow, errors, b.alpha, m));
      Ok(b.(priorities := ps))
  }

  /** The priorities `update_priorities` writes for the first `m` errors. */
  function Refreshed(pow: (real, real) -> real, errors: seq<real>, alpha: real, m: nat): (vals: seq<real>)
    requires m <= |errors|
    ensures |vals| == m
    ensures forall k :: 0 <= k < m ==> vals[k] == pow(errors[k] + PriorityEpsilon, alpha)
  {
    seq(m, k requires 0 <= k < m => pow(errors[k] + PriorityEpsilon, alpha))
  }

  /** Some write to a slot is the last one to it. */
  lemma {:induction false} LastWrite(s: seq<nat>, j: nat, k: nat) returns (last: nat)
    requires k < |s| && s[k] == j
    ensures k <= last < |s| && s[last] == j
    ensures forall k' :: last < k' < |s| ==> s[k'] != j
    decreases |s| - k
  {
    if exists k' :: k < k' < |s| && s[k'] == j {
      var k' :| k < k' < |s| && s[k'] == j;
      last := LastWrite(s, j, k');
    } else {
      last := k;
    }
  }

  /** Unlike `add`, `update_priorities` never stores a zero priority for a
      non-negative error: every slot it writes ends up positive. */
  lemma RefreshedPrioritiesPositive<T>(b: Buffer<T>, pow: (real, real) -> real, indices: seq<int>, errors: seq<real>, k: nat)
    requires b.Valid() && PowLaws(pow)
    requires forall i :: 0 <= i < |errors| ==> errors[i] >= 0.0
    requires k < |indices| && k < |errors|
    requires InRange(indices, b.Size(), Min(|indices|, |errors|))
    ensures UpdatePriorities(b, pow, indices, errors).value.priorities[PyIndex(indices[k], b.Size()).value] > 0.0
  {
    var m := Min(|indices|, |errors|);
    var s := Slots(indices, b.Size(), m);
    var last := LastWrite(s, s[k], k);
    assert errors[last] + PriorityEpsilon > 0.0;
  }
}

=== FILE: Training.dfy ===
/** The arithmetic of the DQN training loop: epsilon-greedy action choice,
    the double-Q target and TD error, the learn guard, the batch targets,
    the refreshed priorities, the epsilon schedule and the target-network
    sync. The networks are abstract: `predict` maps weights and one state to
    one Q-value per action, `fit` maps weights and a weighted batch to new
    weights. Coin flips and numpy's draws are inputs. */
module Training {
  import opened Outcomes
  import opened ReplayBuffer
  import Environment

  /** Default arguments of `train`. */
  const BatchSize: nat := 16
  const EpsilonStart: real := 1.0
  const EpsilonMin: real := 0.01
  const EpsilonDecay: real := 0.995
  const UpdateTargetFreq: int := 5
  /** The replay capacity `train` creates its buffer with. */
  const Capacity: nat := 10000

  /** `action_size = len(env.actions)`. */
  const ActionCount: nat := |Environment.Actions|
  /** The width `train` reshapes every state to, as written. */
  const StateSizeAsWritten: nat := 5
  /** The width of the state `reset` actually returns. */
  const StateDim: nat := 4

  /** One stored `(state, action, reward, next_state, done)` tuple. */
  datatype Transition = Transition(state: seq<real>, action: int, reward: real, nextState: seq<real>, done: bool)

  /** The two network operations; the weights `W` are opaque. */
  datatype Nets<!W> = Nets(predict: (W, seq<real>) -> seq<real>,
                          fit: (W, seq<seq<real>>, seq<seq<real>>, seq<real>) -> W)

  /** The dueling network has one output per action, for any weights and input. */
  ghost predicate WellShaped<W(!new)>(predict: (W, seq<real>) -> seq<real>) {
    forall w, x :: |predict(w, x)| == ActionCount
  }

  /** `model.predict` on a batch: one prediction per row. */
  function PredictRows<W(!new)>(predict: (W, seq<real>) -> seq<real>, w: W, xs: seq<seq<real>>): (r: seq<seq<real>>)
    requires WellShaped(predict)
    ensures |r| == |xs|
    ensures forall i :: 0 <= i < |r| ==> r[i] == predict(w, xs[i]) && |r[i]| == ActionCount
  {
    seq(|xs|, i requires 0 <= i < |xs| => predict(w, xs[i]))
  }

  function Abs(x: real): real {
    if x < 0.0 then -x else x
  }

  // ---------------------------------------------------------------------
  // Action choice

  /** `np.argmax`: the first index holding the largest value. */
  function ArgMax(v: seq<real>): (i: nat)
    requires |v| > 0
    ensures i < |v|
    ensures forall j :: 0 <= j < |v| ==> v[j] <= v[i]
    ensures forall j :: 0 <= j < i ==> v[j] < v[i]
  {
    if |v| == 1 then 0
    else
      var i := ArgMax(v[..|v| - 1]);
      assert forall j :: 0 <= j < |v| - 1 ==> v[..|v| - 1][j] == v[j];
      if v[|v| - 1] > v[i] then |v| - 1 else i
  }

  /** The value at `ArgMax` is the maximum `MaxOf` computes. */
  lemma ArgMaxReachesMax(v: seq<real>)
    requires |v| > 0
    ensures v[ArgMax(v)] == MaxOf(v)
  {
    var k :| 0 <= k < |v| && v[k] == MaxOf(v);
    assert v[k] <= v[ArgMax(v)];
  }

  /** Epsilon-greedy: explore with the random action when the coin is below
      epsilon, otherwise take the first action of highest predicted value. */
  function ChooseAction(epsilon: real, coin: real, randomAction: int, q: seq<real>): (a: int)
    requires 0 <= randomAction < |q|
    ensures 0 <= a < |q|
    ensures coin < epsilon ==> a == randomAction
    ensures coin >= epsilon ==> (forall j :: 0 <= j < |q| ==> q[j] <= q[a])
                                && (forall j :: 0 <= j < a ==> q[j] < q[a])
  {
    if coin < epsilon then randomAction else ArgMax(q)
  }

  // ---------------------------------------------------------------------
  // Targets and TD errors

  /** `1 - done` for a Python bool. */
  function NotDone(done: bool): real {
    if done then 0.0 else 1.0
  }

  /** The double-Q target: the online network picks the next action and
      the target network values it; a terminal transition is worth exactly
      its reward. */
  function DoubleQTarget(reward: real, gamma: real, done: bool, onlineNext: seq<real>, targetNext: seq<real>): (y: real)
    requires |onlineNext| > 0 && |targetNext| == |onlineNext|
    ensures done ==> y == reward
    ensures !done ==> y == reward + gamma * targetNext[ArgMax(onlineNext)]
  {
    var a := ArgMax(onlineNext);
    reward + gamma * targetNext[a] * NotDone(done)
  }

  /** The plain DQN target: the reward plus the discounted largest next
      value of a single network. */
  function GreedyTarget(reward: real, gamma: real, done: bool, next: seq<real>): real
    requires |next| > 0
  {
    reward + gamma * MaxOf(next) * NotDone(done)
  }

  /** For a non-negative discount the double-Q target never exceeds the
      plain target of the target network. */
  lemma DoubleQBound(reward: real, gamma: real, done: bool, onlineNext: seq<real>, targetNext: seq<real>)
    requires |onlineNext| > 0 && |targetNext| == |onlineNext| && gamma >= 0.0
    ensures DoubleQTarget(reward, gamma, done, onlineNext, targetNext) <= GreedyTarget(reward, gamma, done, targetNext)
  {
    var x := targetNext[ArgMax(onlineNext)];
    DiscountBelow(reward, gamma * NotDone(done), x, MaxOf(targetNext));
  }

  lemma DiscountBelow(reward: real, g: real, x: real, m: real)
    requires g >= 0.0 && x <= m
    ensures reward + g * x <= reward + g * m
  {
    ScaleBelow(g, x, m);
  }

  lemma ScaleBelow(g: real, x: real, m: real)
    requires g >= 0.0 && x <= m
    ensures g * x <= g * m
  {
  }

  /** When the two networks agree, double-Q is the plain target. */
  lemma SameNetworkIsGreedyTarget(reward: real, gamma: real, done: bool, next: seq<real>)
    requires |next| > 0
    ensures DoubleQTarget(reward, gamma, done, next, next) == GreedyTarget(reward, gamma, done, next)
  {
    ArgMaxReachesMax(next);
    TimesNotDone(gamma * MaxOf(next), done);
  }

  /** Multiplying by `1 - done` keeps a value or zeroes it. */
  lemma TimesNotDone(x: real, done: bool)
    ensures x * NotDone(done) == if done then 0.0 else x
  {
  }

  /** `abs(target - q_current)`. */
  function TdError(target: real, current: real): (e: real)
    ensures e >= 0.0
    ensures e == 0.0 <==> target == current
    ensures e == target - current || e == current - target
  {
    Abs(target - current)
  }

  /** The learn guard: a batch is drawn only once the buffer holds strictly
      more transitions than the batch size. */
  predicate ShouldLearn(size: nat, batchSize: nat) {
    size > batchSize
  }

  /** The training targets of a batch: each row is the online prediction
      with only the taken action's entry replaced by its double-Q target. */
  function BatchTargets(pred: seq<seq<real>>, actions: seq<int>, rewards: seq<real>,
                        nextOnline: seq<seq<real>>, nextTarget: seq<seq<real>>, dones: seq<bool>, gamma: real)
    : (r: seq<seq<real>>)
    requires |actions| == |rewards| == |nextOnline| == |nextTarget| == |dones| == |pred|
    requires forall i :: 0 <= i < |pred| ==> 0 <= actions[i] < |pred[i]|
    requires forall i :: 0 <= i < |pred| ==> |nextOnline[i]| > 0 && |nextTarget[i]| == |nextOnline[i]|
    ensures |r| == |pred|
    ensures forall i :: 0 <= i < |r| ==> |r[i]| == |pred[i]|
    ensures forall i, j :: 0 <= i < |r| && 0 <= j < |r[i]| && j != actions[i] ==> r[i][j] == pred[i][j]
    ensures forall i :: 0 <= i < |r| ==>
              r[i][actions[i]] == DoubleQTarget(rewards[i], gamma, dones[i], nextOnline[i], nextTarget[i])
  {
    seq(|pred|, i requires 0 <= i < |pred| =>
      pred[i][actions[i] := DoubleQTarget(rewards[i], gamma, dones[i], nextOnline[i], nextTarget[i])])
  }

  /** `|a - b|` elementwise. */
  function AbsDiffs(a: seq<real>, b: seq<real>): (d: seq<real>)
    requires |a| == |b|
    ensures |d| == |a|
    ensures forall j :: 0 <= j < |d| ==> d[j] == Abs(a[j] - b[j]) && d[j] >= 0.0
  {
    seq(|a|, j requires 0 <= j < |a| => Abs(a[j] - b[j]))
  }

  /** `np.abs(t - q).max()` for one row: the largest absolute difference.
      It is non-negative, bounds every difference of the row and is one of
      them. */
  function RowError(t: seq<real>, q: seq<real>): (m: real)
    requires |t| == |q| > 0
    ensures m >= 0.0
    ensures forall j :: 0 <= j < |t| ==> Abs(t[j] - q[j]) <= m
    ensures exists j :: 0 <= j < |t| && Abs(t[j] - q[j]) == m
  {
    var d := AbsDiffs(t, q);
    assert d[0] >= 0.0;
    var j :| 0 <= j < |d| && d[j] == MaxOf(d);
    assert Abs(t[j] - q[j]) == MaxOf(d);
    MaxOf(d)
  }

  /** `np.abs(targets - new_q).max(axis=1)`: the row error of every row. */
  function RefreshedErrors(targets: seq<seq<real>>, newQ: seq<seq<real>>): (e: seq<real>)
    requires |targets| == |newQ|
    requires forall i :: 0 <= i < |targets| ==> |targets[i]| == |newQ[i]| > 0
    ensures |e| == |targets|
    ensures forall i :: 0 <= i < |e| ==> e[i] == RowError(targets[i], newQ[i]) && e[i] >= 0.0
  {
    seq(|targets|, i requires 0 <= i < |targets| => RowError(targets[i], newQ[i]))
  }

  /** If fitting leaves the predictions on the batch unchanged, each
      refreshed error is exactly the TD error of that sample's action:
      every other entry of the row matches the prediction. */
  lemma {:induction false} RefreshWithoutChange(pred: seq<seq<real>>, actions: seq<int>, rewards: seq<real>,
                                                nextOnline: seq<seq<real>>, nextTarget: seq<seq<real>>,
                                                dones: seq<bool>, gamma: real, i: nat)
    requires |actions| == |rewards| == |nextOnline| == |nextTarget| == |dones| == |pred|
    requires forall i :: 0 <= i < |pred| ==> 0 <= actions[i] < |pred[i]|
    requires forall i :: 0 <= i < |pred| ==> |nextOnline[i]| > 0 && |nextTarget[i]| == |nextOnline[i]|
    requires i < |pred|
    ensures var targets := BatchTargets(pred, actions, rewards, nextOnline, nextTarget, dones, gamma);
            RefreshedErrors(targets, pred)[i]
              == TdError(DoubleQTarget(rewards[i], gamma, dones[i], nextOnline[i], nextTarget[i]), pred[i][actions[i]])
  {
    var targets := BatchTargets(pred, actions, rewards, nextOnline, nextTarget, dones, gamma);
    var e := RowError(targets[i], pred[i]);
    var td := Abs(targets[i][actions[i]] - pred[i][actions[i]]);
    assert td <= e;
    var j :| 0 <= j < |targets[i]| && Abs(targets[i][j] - pred[i][j]) == e;
    if j != actions[i] {
      assert targets[i][j] == pred[i][j];
    }
  }

  /** If fitting reproduces the targets exactly, every refreshed error is zero. */
  lemma PerfectFitZeroErrors(targets: seq<seq<real>>)
    requires forall i :: 0 <= i < |targets| ==> |targets[i]| > 0
    ensures forall i :: 0 <= i < |targets| ==> RefreshedErrors(targets, targets)[i] == 0.0
  {
    forall i | 0 <= i < |targets|
      ensures RowError(targets[i], targets[i]) == 0.0
    {
      var j :| 0 <= j < |targets[i]| && Abs(targets[i][j] - targets[i][j]) == RowError(targets[i], targets[i]);
    }
  }

  // ---------------------------------------------------------------------
  // Exploration schedule

  /** `max(epsilon_min, epsilon * epsilon_decay)`. */
  function DecayEpsilon(epsilon: real, epsMin: real, decay: real): (r: real)
    ensures r >= epsMin && r >= epsilon * decay
    ensures r == epsMin || r == epsilon * decay
    ensures 0.0 <= decay <= 1.0 && 0.0 <= epsilon && epsMin <= epsilon ==> r <= epsilon
  {
    if epsMin >= epsilon * decay then epsMin
    else
      assert 0.0 <= decay <= 1.0 && 0.0 <= epsilon ==> epsilon * decay <= epsilon by {
        if 0.0 <= decay <= 1.0 && 0.0 <= epsilon {
          ShrinkOnce(epsilon, decay);
        }
      }
      epsilon * decay
  }

  /** Scaling by a factor in [0, 1] never grows a non-negative value. */
  lemma ShrinkOnce(x: real, d: real)
    requires 0.0 <= x && 0.0 <= d <= 1.0
    ensures 0.0 <= x * d <= x
  {
    ScaleBelow(x, d, 1.0);
    ScaleBelow(x, 0.0, d);
  }

  /** Epsilon after `n` episodes. */
  function EpsilonAfter(epsilon0: real, epsMin: real, decay: real, n: nat): real {
    if n == 0 then epsilon0 else DecayEpsilon(EpsilonAfter(epsilon0, epsMin, decay, n - 1), epsMin, decay)
  }

  /** For a decay in [0, 1] and a start above a non-negative floor, the
      schedule never rises, never leaves [epsilon_min, epsilon0], and once
      it reaches the floor it stays there. */
  lemma {:induction false} EpsilonSchedule(epsilon0: real, epsMin: real, decay: real, n: nat)
    requires 0.0 <= epsMin <= epsilon0 && 0.0 <= decay <= 1.0
    ensures epsMin <= EpsilonAfter(epsilon0, epsMin, decay, n + 1) <= EpsilonAfter(epsilon0, epsMin, decay, n) <= epsilon0
    ensures EpsilonAfter(epsilon0, epsMin, decay, n) == epsMin ==> EpsilonAfter(epsilon0, epsMin, decay, n + 1) == epsMin
  {
    if n > 0 {
      EpsilonSchedule(epsilon0, epsMin, decay, n - 1);
    }
  }

  /** With the default schedule epsilon stays within [0.01, 1]. */
  lemma {:induction false} DefaultEpsilonBounds(n: nat)
    ensures EpsilonMin <= EpsilonAfter(EpsilonStart, EpsilonMin, EpsilonDecay, n) <= EpsilonStart
  {
    if n > 0 {
      DefaultEpsilonBounds(n - 1);
    }
  }

  // ---------------------------------------------------------------------
  // The as-written shapes (see Findings) and their corrections

  datatype ShapeError = ValueError

  /** `np.array(raw).reshape(1, width)[0]`: fails unless the sizes agree. */
  function Reshape(raw: seq<real>, width: nat): (r: Result<seq<real>, ShapeError>)
    ensures r.Ok? <==> |raw| == width
    ensures r.Ok? ==> r.value == raw
  {
    if |raw| == width then Ok(raw) else Err(ValueError)
  }

  /** As written, `train` reshapes the 4-element state of `reset` to width
      5, which raises at the start of every episode. */
  lemma ResetStateNeverFitsAsWritten(f: Environment.PlanFeatures)
    ensures Reshape(Environment.ResetState(f), StateSizeAsWritten).Err?
  {
  }

  /** With the width the environment produces, the reshape always succeeds. */
  lemma ResetStateFits(f: Environment.PlanFeatures)
    ensures Reshape(Environment.ResetState(f), StateDim) == Ok(Environment.ResetState(f))
  {
  }

  /** As written, the batch (a list of `batch_size` transitions) is unpacked
      into five names, which raises unless exactly five were drawn. */
  function UnpackAsWritten(batch: seq<Transition>)
    : (r: Result<(Transition, Transition, Transition, Transition, Transition), ShapeError>)
    ensures r.Ok? <==> |batch| == 5
    ensures r.Ok? ==> r.value.0 == batch[0] && r.value.4 == batch[4]
  {
    if |batch| == 5 then Ok((batch[0], batch[1], batch[2], batch[3], batch[4])) else Err(ValueError)
  }

  /** With the default batch size of 16 the unpacking always raises. */
  lemma DefaultBatchCannotBeUnpacked(batch: seq<Transition>)
    requires |batch| == BatchSize
    ensures UnpackAsWritten(batch).Err?
  {
  }

  /** The five field arrays of a batch. */
  datatype Columns = Columns(states: seq<seq<real>>, actions: seq<int>, rewards: seq<real>,
                             nextStates: seq<seq<real>>, dones: seq<bool>)

  /** The intended unpacking `zip(*batch)`: one array per field, in batch order. */
  function Unpack(batch: seq<Transition>): (c: Columns)
    ensures |c.states| == |c.actions| == |c.rewards| == |c.nextStates| == |c.dones| == |batch|
    ensures forall i :: 0 <= i < |batch| ==> Repack(c, i) == batch[i]
  {
    Columns(seq(|batch|, i requires 0 <= i < |batch| => batch[i].state),
            seq(|batch|, i requires 0 <= i < |batch| => batch[i].action),
            seq(|batch|, i requires 0 <= i < |batch| => batch[i].reward),
            seq(|batch|, i requires 0 <= i < |batch| => batch[i].nextState),
            seq(|batch|, i requires 0 <= i < |batch| => batch[i].done))
  }

  /** Row `i` of the five arrays, zipped back into a transition. */
  function Repack(c: Columns, i: nat): Transition
    requires i < |c.states| && i < |c.actions| && i < |c.rewards| && i < |c.nextStates| && i < |c.dones|
  {
    Transition(c.states[i], c.actions[i], c.rewards[i], c.nextStates[i], c.dones[i])
  }

  // ---------------------------------------------------------------------
  // The agent and one step of the loop

  /** What the loop carries between steps: epsilon, the two networks'
      weights and the episode number. */
  datatype Agent<W> = Agent(epsilon: real, online: W, target: W, episode: nat)

  /** Two networks with the target's weights set from the online one. */
  function InitAgent<W>(w: W, epsilon: real): (a: Agent<W>)
    ensures a.online == w && a.target == a.online
    ensures a.epsilon == epsilon && a.episode == 0
  {
    Agent(epsilon, w, w, 0)
  }

  /** A transition the loop can store: a legal action and states of the
      environment's width. */
  predicate StoredOk(t: Transition) {
    0 <= t.action < ActionCount && |t.state| == StateDim && |t.nextState| == StateDim
  }

  /** The buffer invariant of the loop. */
  predicate BufferOk(b: Buffer<Transition>) {
    b.Valid() && forall i :: 0 <= i < |b.items| ==> StoredOk(b.items[i])
  }

  /** `np.random.choice(len, batch_size, p=probs)` answers every distribution
      that gives some index positive probability with a valid draw. */
  ghost predicate Draws(draw: seq<real> -> seq<int>, n: nat) {
    forall probs :: HasPositive(probs) ==> IsDraw(draw(probs), probs, n)
  }

  predicate HasPositive(s: seq<real>) {
    exists i :: 0 <= i < |s| && s[i] > 0.0
  }

  lemma {:induction false} PositiveSumHasPositive(s: seq<real>)
    requires Sum(s) > 0.0
    ensures HasPositive(s)
  {
    if s[0] <= 0.0 {
      PositiveSumHasPositive(s[1..]);
      var i :| 0 <= i < |s[1..]| && s[1..][i] > 0.0;
      assert s[i + 1] > 0.0;
    }
  }

  /** The sampling distribution always admits a valid draw. */
  lemma DrawIsValid(probs: seq<real>, draw: seq<real> -> seq<int>, n: nat)
    requires Draws(draw, n) && Sum(probs) == 1.0
    ensures IsDraw(draw(probs), probs, n)
  {
    PositiveSumHasPositive(probs);
  }

  /** The random inputs of one step. */
  datatype Dice = Dice(coin: real, randomAction: int, draw: seq<real> -> seq<int>)

  /** The database as the environment sees it. */
  datatype Db = Db(run: string -> Environment.ExecOutcome, parse: string -> Option<real>,
                   features: Environment.PlanFeatures)

  datatype TrainError = SampleFailed(cause: SampleError) | ZeroDivision

  /** A sample of `batchSize` transitions of `b` at the drawn slots, with
      importance weights in (0, 1]. */
  predicate SampleFacts(b: Buffer<Transition>, s: Sampled<Transition>, batchSize: nat) {
    && |s.batch| == |s.weights| == |s.indices| == batchSize
    && forall k :: 0 <= k < batchSize ==>
         && 0 <= s.indices[k] < b.Size()
         && s.batch[k] == b.items[s.indices[k]]
         && 0.0 < s.weights[k] <= 1.0
  }

  datatype Learned<W> = Learned(online: W, buffer: Buffer<Transition>, sample: Sampled<Transition>,
                                targets: seq<seq<real>>, errors: seq<real>)

  /** The learning half of a step: draw a batch, build its targets, fit the
      online network with the importance weights, and write the refreshed
      errors back as priorities of the drawn slots. Only the online weights
      and the priorities change, and only a zero batch size fails. */
  function Learn<W(!new)>(a: Agent<W>, b: Buffer<Transition>, nets: Nets<W>, pow: (real, real) -> real,
                    draw: seq<real> -> seq<int>, batchSize: nat, gamma: real, beta: real)
    : (r: Result<Learned<W>, TrainError>)
    requires BufferOk(b) && b.Size() > 0 && PowLaws(pow) && WellShaped(nets.predict) && Draws(draw, batchSize)
    ensures r.Err? <==> batchSize == 0
    ensures r.Ok? ==> && BufferOk(r.value.buffer) && r.value.buffer.items == b.items
                      && r.value.buffer.capacity == b.capacity && r.value.buffer.alpha == b.alpha
    ensures r.Ok? ==> && r.value.sample.indices == draw(Probabilities(b.priorities))
                      && SampleFacts(b, r.value.sample, batchSize)
    ensures r.Ok? ==> UpdatePriorities(b, pow, r.value.sample.indices, r.value.errors) == Ok(r.value.buffer)
    ensures r.Ok? ==> r.value.online == nets.fit(a.online, Unpack(r.value.sample.batch).states,
                                                 r.value.targets, r.value.sample.weights)
    ensures r.Ok? ==> |r.value.errors| == batchSize && forall k :: 0 <= k < batchSize ==> r.value.errors[k] >= 0.0
    ensures r.Ok? ==> && IsDraw(draw(Probabilities(b.priorities)), Probabilities(b.priorities), batchSize)
                      && Sample(b, pow, batchSize, beta, draw(Probabilities(b.priorities))) == Ok(r.value.sample)
    ensures r.Ok? ==> r.value == LearnFrom(a, b, nets, pow, r.value.sample, gamma)
  {
    var probs := Probabilities(b.priorities);
    DrawIsValid(probs, draw, batchSize);
    match Sample(b, pow, batchSize, beta, draw(probs))
    case Err(e) => Err(SampleFailed(e))
    case Ok(s) =>
      assert SampleFacts(b, s, batchSize);
      var l := LearnFrom(a, b, nets, pow, s, gamma);
      assert l.sample == s;
      Ok(l)
  }

  /** Learning from a drawn sample of the buffer: targets from the
      predictions of the drawn states, one weighted fit, and the row errors
      after the fit written back as priorities of the drawn slots. */
  function LearnFrom<W(!new)>(a: Agent<W>, b: Buffer<Transition>, nets: Nets<W>, pow: (real, real) -> real,
                              s: Sampled<Transition>, gamma: real)
    : (l: Learned<W>)
    requires BufferOk(b) && WellShaped(nets.predict)
    requires |s.batch| == |s.indices|
    requires forall k :: 0 <= k < |s.indices| ==> 0 <= s.indices[k] < b.Size() && s.batch[k] == b.items[s.indices[k]]
    ensures l.sample == s
    ensures && BufferOk(l.buffer) && l.buffer.items == b.items
            && l.buffer.capacity == b.capacity && l.buffer.alpha == b.alpha
    ensures UpdatePriorities(b, pow, s.indices, l.errors) == Ok(l.buffer)
    ensures l.online == nets.fit(a.online, Unpack(s.batch).states, l.targets, s.weights)
    ensures |l.errors| == |s.batch| && forall k :: 0 <= k < |s.batch| ==> l.errors[k] >= 0.0
    ensures ColumnsOk(Unpack(s.batch))
    ensures l.targets == SampleTargets(a, nets, Unpack(s.batch), gamma)
    ensures l.errors == RefreshedErrors(l.targets, PredictRows(nets.predict, l.online, Unpack(s.batch).states))
  {
    var c := Unpack(s.batch);
    UnpackStored(b, s);
    var targets := SampleTargets(a, nets, c, gamma);
    var online := nets.fit(a.online, c.states, targets, s.weights);
    var errors := RefreshedErrors(targets, PredictRows(nets.predict, online, c.states));
    DrawnInRange(s.indices, b.Size());
    var u := UpdatePriorities(b, pow, s.indices, errors);
    Learned(online, u.value, s, targets, errors)
  }

  /** The five arrays have one entry per sample and every action is legal. */
  predicate ColumnsOk(c: Columns) {
    && |c.actions| == |c.rewards| == |c.nextStates| == |c.dones| == |c.states|
    && forall i :: 0 <= i < |c.actions| ==> 0 <= c.actions[i] < ActionCount
  }

  /** Columns of transitions drawn from a buffer that keeps its invariant. */
  lemma UnpackStored(b: Buffer<Transition>, s: Sampled<Transition>)
    requires BufferOk(b) && |s.batch| == |s.indices|
    requires forall k :: 0 <= k < |s.indices| ==> 0 <= s.indices[k] < b.Size() && s.batch[k] == b.items[s.indices[k]]
    ensures ColumnsOk(Unpack(s.batch))
  {
    var c := Unpack(s.batch);
    forall i | 0 <= i < |c.actions|
      ensures 0 <= c.actions[i] < ActionCount
    {
      var j := s.indices[i];
      assert 0 <= j < b.Size() && s.batch[i] == b.items[j];
      assert StoredOk(b.items[j]);
      assert Repack(c, i) == s.batch[i];
    }
  }

  /** Slots drawn inside the deque resolve to themselves. */
  lemma DrawnInRange(indices: seq<int>, n: nat)
    requires forall k :: 0 <= k < |indices| ==> 0 <= indices[k] < n
    ensures forall m :: 0 <= m <= |indices| ==> InRange(indices, n, m)
  {
  }

  /** The target matrix of a batch: online predictions of the states with
      the double-Q target (online picks, target values) at each taken action. */
  function SampleTargets<W(!new)>(a: Agent<W>, nets: Nets<W>, c: Columns, gamma: real): (t: seq<seq<real>>)
    requires WellShaped(nets.predict) && ColumnsOk(c)
    ensures |t| == |c.states|
    ensures forall i :: 0 <= i < |t| ==> |t[i]| == ActionCount
    ensures forall i, j :: 0 <= i < |t| && 0 <= j < ActionCount && j != c.actions[i] ==>
              t[i][j] == nets.predict(a.online, c.states[i])[j]
    ensures forall i :: 0 <= i < |t| ==>
              t[i][c.actions[i]] == DoubleQTarget(c.rewards[i], gamma, c.dones[i],
                                                  nets.predict(a.online, c.nextStates[i]),
                                                  nets.predict(a.target, c.nextStates[i]))
  {
    BatchTargets(PredictRows(nets.predict, a.online, c.states), c.actions, c.rewards,
                 PredictRows(nets.predict, a.online, c.nextStates),
                 PredictRows(nets.predict, a.target, c.nextStates), c.dones, gamma)
  }

  datatype Acted = Acted(action: int, outcome: Environment.StepResult, buffer: Buffer<Transition>)

  /** The acting half of a step: choose an action from the online network's
      prediction, step the environment, and store the transition with the
      TD error of its double-Q target as priority. */
  function Act<W(!new)>(a: Agent<W>, e: Environment.Env, state: seq<real>, b: Buffer<Transition>,
                        nets: Nets<W>, pow: (real, real) -> real, db: Db, dice: Dice, gamma: real)
    : (r: Acted)
    requires e.query.Some? && |state| == StateDim && BufferOk(b)
    requires WellShaped(nets.predict) && 0 <= dice.randomAction < ActionCount
    ensures 0 <= r.action < ActionCount
    ensures r.action == ChooseAction(a.epsilon, dice.coin, dice.randomAction, nets.predict(a.online, state))
    ensures Environment.Step(e, r.action, db.run, db.parse, db.features) == Ok(r.outcome)
    ensures && BufferOk(r.buffer) && r.buffer.capacity == b.capacity
            && r.buffer.Size() == Min(b.Size() + 1, b.capacity)
    ensures b.capacity > 0 ==>
              r.buffer.items[r.buffer.Size() - 1]
                == Transition(state, r.action, r.outcome.reward, r.outcome.nextState, r.outcome.done)
    ensures && r.outcome.env.query == Some(Environment.BaseQuery)
            && r.outcome.env.state == Some(r.outcome.nextState)
            && |r.outcome.nextState| == StateDim
    ensures r.outcome.done <==> -r.outcome.reward < Environment.DoneBelow
    ensures r.buffer == Add(b, pow, Transition(state, r.action, r.outcome.reward, r.outcome.nextState, r.outcome.done),
                            TdError(DoubleQTarget(r.outcome.reward, gamma, r.outcome.done,
                                                  nets.predict(a.online, r.outcome.nextState),
                                                  nets.predict(a.target, r.outcome.nextState)),
                                    nets.predict(a.online, state)[r.action]))
  {
    var q := nets.predict(a.online, state);
    var action := ChooseAction(a.epsilon, dice.coin, dice.randomAction, q);
    var st := Environment.Step(e, action, db.run, db.parse, db.features).value;
    var next := st.nextState;
    var y := DoubleQTarget(st.reward, gamma, st.done, nets.predict(a.online, next), nets.predict(a.target, next));
    var t := Transition(state, action, st.reward, next, st.done);
    var b1 := Add(b, pow, t, TdError(y, q[action]));
    AddKeepsStoredOk(b, pow, t, TdError(y, q[action]));
    Acted(action, st, b1)
  }

  datatype Stepped<W> = Stepped(agent: Agent<W>, env: Environment.Env, state: seq<real>, action: int,
                                buffer: Buffer<Transition>, reward: real, done: bool, learned: bool)

  /** One pass of the inner loop: act, then learn once the buffer holds
      more than a batch. The target network, epsilon and the episode number
      are untouched; the online network changes only when learning happens;
      only a zero batch size can fail. */
  function TrainStep<W(!new)>(a: Agent<W>, e: Environment.Env, state: seq<real>, b: Buffer<Transition>,
                        nets: Nets<W>, pow: (real, real) -> real, db: Db, dice: Dice,
                        batchSize: nat, gamma: real, beta: real)
    : (r: Result<Stepped<W>, TrainError>)
    requires e.query.Some? && |state| == StateDim && BufferOk(b)
    requires PowLaws(pow) && WellShaped(nets.predict)
    requires 0 <= dice.randomAction < ActionCount && Draws(dice.draw, batchSize)
    ensures r.Err? ==> batchSize == 0
    ensures batchSize > 0 ==> r.Ok?
    ensures r.Ok? ==> && r.value.agent.target == a.target
                      && r.value.agent.epsilon == a.epsilon
                      && r.value.agent.episode == a.episode
    ensures r.Ok? ==> && BufferOk(r.value.buffer) && r.value.buffer.capacity == b.capacity
                      && r.value.buffer.Size() == Min(b.Size() + 1, b.capacity)
    ensures r.Ok? ==> (r.value.learned <==> ShouldLearn(r.value.buffer.Size(), batchSize))
    ensures r.Ok? && !r.value.learned ==> r.value.agent.online == a.online
    ensures r.Ok? ==> && r.value.env.query == Some(Environment.BaseQuery)
                      && r.value.env.state == Some(r.value.state)
                      && |r.value.state| == StateDim
    ensures r.Ok? ==> (r.value.done <==> -r.value.reward < Environment.DoneBelow)
    ensures r.Ok? && b.capacity > 0 ==>
              r.value.buffer.items[r.value.buffer.Size() - 1]
                == Transition(state, r.value.action, r.value.reward, r.value.state, r.value.done)
    ensures r.Ok? ==> var act := Act(a, e, state, b, nets, pow, db, dice, gamma);
                      && Carries(act, r.value)
                      && (!r.value.learned ==> r.value.buffer == act.buffer)
                      && (r.value.learned ==> LearnedFrom(a, act.buffer, nets, pow, dice.draw, batchSize, gamma, beta, r.value))
  {
    AfterAct(a, Act(a, e, state, b, nets, pow, db, dice, gamma), nets, pow, dice.draw, batchSize, gamma, beta)
  }

  /** The step's action, reward, next state, done flag and environment are
      those of the acting half. */
  predicate Carries<W>(act: Acted, st: Stepped<W>) {
    && st.action == act.action && st.reward == act.outcome.reward
    && st.state == act.outcome.nextState && st.done == act.outcome.done
    && st.env == act.outcome.env
  }

  /** Learning on buffer `b` succeeds, and the step takes its new online
      weights and its buffer with the refreshed priorities. */
  ghost predicate LearnedFrom<W(!new)>(a: Agent<W>, b: Buffer<Transition>, nets: Nets<W>, pow: (real, real) -> real,
                                 draw: seq<real> -> seq<int>, batchSize: nat, gamma: real, beta: real, st: Stepped<W>)
    requires BufferOk(b) && b.Size() > 0 && PowLaws(pow) && WellShaped(nets.predict) && Draws(draw, batchSize)
  {
    var l := Learn(a, b, nets, pow, draw, batchSize, gamma, beta);
    l.Ok? && st.agent.online == l.value.online && st.buffer == l.value.buffer
  }

  /** The rest of a step once the transition is stored: learn when the
      buffer holds more than a batch, otherwise carry the acting half on. */
  function AfterAct<W(!new)>(a: Agent<W>, act: Acted, nets: Nets<W>, pow: (real, real) -> real,
                             draw: seq<real> -> seq<int>, batchSize: nat, gamma: real, beta: real)
    : (r: Result<Stepped<W>, TrainError>)
    requires BufferOk(act.buffer) && PowLaws(pow) && WellShaped(nets.predict) && Draws(draw, batchSize)
    ensures r.Err? <==> ShouldLearn(act.buffer.Size(), batchSize) && batchSize == 0
    ensures r.Ok? ==> && Carries(act, r.value)
                      && r.value.agent.target == a.target && r.value.agent.epsilon == a.epsilon
                      && r.value.agent.episode == a.episode
    ensures r.Ok? ==> && BufferOk(r.value.buffer) && r.value.buffer.items == act.buffer.items
                      && r.value.buffer.capacity == act.buffer.capacity
    ensures r.Ok? ==> (r.value.learned <==> ShouldLearn(act.buffer.Size(), batchSize))
    ensures r.Ok? && !r.value.learned ==> r.value.agent.online == a.online && r.value.buffer == act.buffer
    ensures r.Ok? && r.value.learned ==> LearnedFrom(a, act.buffer, nets, pow, draw, batchSize, gamma, beta, r.value)
  {
    var st := act.outcome;
    if ShouldLearn(act.buffer.Size(), batchSize) then
      match Learn(a, act.buffer, nets, pow, draw, batchSize, gamma, beta)
      case Err(err) => Err(err)
      case Ok(l) =>
        Ok(Stepped(a.(online := l.online), st.env, st.nextState, act.action, l.buffer, st.reward, st.done, true))
    else
      Ok(Stepped(a, st.env, st.nextState, act.action, act.buffer, st.reward, st.done, false))
  }

  /** Storing a storable transition keeps the buffer invariant. */
  lemma AddKeepsStoredOk(b: Buffer<Transition>, pow: (real, real) -> real, t: Transition, error: real)
    requires BufferOk(b) && StoredOk(t)
    ensures BufferOk(Add(b, pow, t, error))
  {
    var r := Add(b, pow, t, error);
    forall i | 0 <= i < |r.items|
      ensures StoredOk(r.items[i])
    {
      if b.Size() < b.capacity {
        assert r.items == b.items + [t];
      } else {
        assert r.items == b.items[1..] + [t];
      }
    }
  }

  /** The start of an episode: reset the environment and shape its state. */
  function StartEpisode(e: Environment.Env, f: Environment.PlanFeatures): (r: (Environment.Env, seq<real>))
    ensures r.0.query == Some(Environment.BaseQuery)
    ensures r.0.state == Some(r.1) && |r.1| == StateDim
    ensures r.1 == Environment.ResetState(f)
  {
    var next := Environment.Reset(e, f);
    (next, Reshape(next.state.value, StateDim).value)
  }

  /** The end of an episode: decay epsilon, copy the online weights into
      the target network when the episode number is a multiple of the
      frequency (episode 0 included), and move to the next episode. A zero
      frequency raises ZeroDivisionError. */
  function EndEpisode<W>(a: Agent<W>, epsMin: real, decay: real, freq: int): (r: Result<Agent<W>, TrainError>)
    ensures r.Err? <==> freq == 0
    ensures r.Ok? ==> && r.value.online == a.online && r.value.episode == a.episode + 1
                      && r.value.epsilon == DecayEpsilon(a.epsilon, epsMin, decay)
    ensures r.Ok? && a.episode % freq == 0 ==> r.value.target == a.online
    ensures r.Ok? && a.episode % freq != 0 ==> r.value.target == a.target
  {
    if freq == 0 then Err(ZeroDivision)
    else
      var target := if PyMod(a.episode, freq) == 0 then a.online else a.target;
      Ok(Agent(DecayEpsilon(a.epsilon, epsMin, decay), a.online, target, a.episode + 1))
  }

  /** The buffer `train` creates has capacity 10000, so with the default
      batch size of 16 learning starts with the 17th stored transition and
      then happens on every step. */
  lemma DefaultLearningStart(pow: (real, real) -> real, ts: seq<Transition>, errors: seq<real>)
    requires |ts| == |errors|
    ensures ShouldLearn(AddAll(Create(Capacity, DefaultAlpha), pow, ts, errors).Size(), BatchSize) <==> |ts| > BatchSize
  {
    var b := AddAll(Create(Capacity, DefaultAlpha), pow, ts, errors);
    assert b.Size() == Min(|ts|, Capacity);
  }

  /** With the default alpha of that buffer, a zero TD error handed to `add`
      is stored as priority 0. */
  lemma DefaultZeroErrorPriority(pow: (real, real) -> real, t: Transition)
    requires PowLaws(pow)
    ensures Add(Create(Capacity, DefaultAlpha), pow, t, 0.0).priorities == [0.0]
  {
    var b := Create<Transition>(Capacity, DefaultAlpha);
    AddZeroErrorStoresZeroPriority(b, pow, t);
  }

  /** With the default frequency the target network is refreshed in
      episodes 0, 5, 10, ... and keeps its weights in every other episode. */
  lemma DefaultSyncSchedule<W>(a: Agent<W>, epsMin: real, decay: real)
    ensures var r := EndEpisode(a, epsMin, decay, UpdateTargetFreq);
            r.Ok? && (r.value.target == a.online || a.episode % 5 != 0)
            && (a.episode % 5 != 0 ==> r.value.target == a.target)
  {
  }
}
